=== FILE: README.md ===
# A verified model of my_stl's vector, iterators and unique_ptr

This project models the core of a small C++ re-implementation of standard
library pieces. It covers four components.

- **The growable vector.** `vector.h` is the later revision and
  `my_vector.cpp` the earlier one. The object `(sz_, cap_, arr_)` becomes
  `Vector(elems, cap)`, where `elems` are the live elements and `sz_ == |elems|`.
  The class invariant is `sz_ <= cap_`.
  - Every mutator is a pure function. It states the outcome, the contents, the
    size and the capacity afterwards.
  - `reserve`, `push_back` and `resize` also have a `...Traced` method. It follows
    the C++ loops and also returns the trace of placement-new constructions,
    explicit destructor calls and block releases (module `Lifetimes`). That
    trace exposes the lifetime defects listed under Findings.
  - Exceptions are values. A `Faults` oracle says whether the raw allocation
    fails and which destination slots have a throwing copy constructor. The
    result is `Done` or `Threw(BadAlloc | ConstructorThrew(slot))`.
- **Iterators.** The pointer-wrapping `iterator` and the `reverse_iterator`
  adapter work on integer positions into a sequence.
- **back_insert_iterator.** Assigning through it is `push_back` on the vector model.
- **unique_ptr.** The scalar and array forms are an ownership state machine over
  abstract addresses. Each operation that can delete returns its list of
  deleter calls. The multisets `Owned`/`Freed` state conservation of
  ownership: every non-null pointer is either held or handed to a deleter.

Some facts about the code that shape the model:
- `reserve` always copies the elements. There is no move-if-noexcept.
- No length error is raised.
- `resize(n)` with `n == size()` reallocates.
- `my_vector.cpp`'s `resize` never grows the size.
- The vector has no `insert`, `erase`, `assign`, `swap` or copy/move assignment.

## Model

| member | source | states |
|---|---|---|
| `Vectors.New` | vector.h:40-52 | a default-constructed vector has size 0 and capacity 0, is empty, and satisfies `sz_ <= cap_` |
| `Vectors.IteratorsSpanElements` | vector.h:20-35 | walking `i` steps from `begin()` reads element `i`; `size()` steps reach `end()` |
| `Vectors.Reserve` | vector.h:54-103 | `n <= capacity` changes nothing. Otherwise: success keeps the contents and makes the capacity exactly `n`. An allocation failure or a throwing copy leaves the vector unchanged. `bad_alloc` is raised exactly when `n > cap` and the allocation fails; otherwise success holds exactly when no copy of the `size` elements throws |
| `Vectors.ReserveTraced` | vector.h:54-103 | the loops agree with `Reserve`. On a throw at slot `i` the trace is the constructions of `0..i-1`, then `i` destructions of slot `i` (as written), then release of the new block. On success the old block gets `size` destructions of slot 1 (as written) before its release |
| `Vectors.ReserveIdempotent` | vector.h:54-57 | after a successful `reserve(n)` the capacity is `max(cap, n)`, and a second `reserve(n)` changes nothing |
| `Vectors.Resize` | vector.h:105-155 | `n < size` keeps the prefix and the capacity. `size < n <= cap` appends copies in place; on failure it keeps everything. Otherwise (including `n == size`) the capacity becomes `max(cap ? 2cap : 1, n)`. Any failure leaves the vector unchanged, success gives size `n`, and capacity never decreases. In place, success holds exactly when no copy into `size..n-1` throws. When reallocating, `bad_alloc` is raised exactly when the allocation fails; otherwise success holds exactly when no copy into `0..n-1` throws |
| `Vectors.ResizeTraced` | vector.h:105-155 | the loops agree with `Resize`. Shrinking destroys slots `n..size-1`. A failed allocation traces nothing. The in-place and reallocating rollbacks destroy exactly the constructed slots. The growing branch releases the old block without destroying its elements |
| `Vectors.ResizeFixed` | vector.h:110-126 | `resize` with the guard corrected: `n == size` is a no-op, `n <= cap` keeps the capacity, and success gives size `n` with prefix or copies |
| `Vectors.ResizeToSameSizeReallocates` | vector.h:110-126 | as written, `resize(size())` succeeds with unchanged contents but strictly larger capacity |
| `Vectors.ResizeGrowLeaksOldElements` | vector.h:147-149 | the growing branch's trace never destroys slot 0 of the old block, so not every old element is destroyed once |
| `Vectors.ResizeGrowWithTeardownBalances` | vector.h:139-149 | with a teardown of the old block added before its release, each old element is destroyed exactly once |
| `Vectors.PushBack` | vector.h:157-193 | on success the contents become `old ++ [value]`. The capacity becomes `cap ? 2cap : 1` exactly when `size == cap` and is unchanged otherwise. Any failure leaves the vector unchanged. `bad_alloc` is raised exactly when the vector is full and the allocation fails. In place, success holds exactly when the copy into slot `size` does not throw. When growing, success holds exactly when no copy into `0..size` throws |
| `Vectors.PushBackTraced` | vector.h:157-193 | the loops agree with `PushBack`. A failed allocation traces nothing. In place the trace is one construction at slot `size`. When growing, a throw at slot `i` gives `i` destructions of slot `i` (as written); success gives `size` destructions of old slot 1 (as written) |
| `Vectors.PopBack` | vector.h:195-203 | needs a non-empty vector; drops exactly the last element, keeps the prefix and the capacity |
| `Vectors.PushAll` | vector.h:157-193 | successive `push_back`s with no faults give contents `old ++ values`, keep `sz_ <= cap_`, and never lower the capacity |
| `Vectors.PushesWithinCapacityKeepCapacity` | vector.h:157-182 | appends that fit within the capacity never reallocate |
| `Vectors.ReservedAppendsDoNotReallocate` | vector.h:54-182 | after a successful `reserve(n)`, appending up to `n` elements in total keeps the capacity at `max(cap, n)` and the values in order |
| `Vectors.PushAllKeepsGeometricCapacity` | vector.h:158-160 | doubling keeps the capacity a power of two below twice the size |
| `Vectors.PushAllFromEmpty` | vector.h:157-193 | from empty, `k > 0` appends store the values in order, with a power-of-two capacity in `[k, 2k)` (1, 2, 4, 8, ...) |
| `Vectors.PushPopRoundTrip` | vector.h:195-203 | `pop_back` after a successful `push_back` restores the contents |
| `Outcomes.FirstThrow` | vector.h:80-83 | the copy loop stops at the first slot whose constructor throws, or runs to the end |
| `Lifetimes.ConstructEach` | vector.h:129-137 | the construction loop builds `items[..done]`, stops exactly at the first throwing slot, and traces one construction per built slot |
| `Lifetimes.DestroyRange` | vector.h:117-119 | `for (j = lo; j < hi; ++j) (p + j)->~T()` destroys slots `lo..hi-1` in order |
| `Lifetimes.DestroySlotRepeatedly` | vector.h:84-86 | the loop whose body names slot `i` instead of `j` destroys the same slot `hi - lo` times |
| `Lifetimes.RollbackAsWrittenLeaks` | vector.h:84-86 | the rollback as written leaves the first constructed slot alive and destroys the unconstructed slot `i` `i - lo` times |
| `Lifetimes.NetAfterRollbackAsWritten` | vector.h:80-86 | after the constructions of `lo..i-1` and the rollback as written, each slot in `lo..i-1` keeps one live object, slot `i` is destroyed `i - lo` times without a construction, and every other slot is untouched |
| `Lifetimes.RollbackBalances` | vector.h:139-141 | destroying slots `lo..i-1` after constructing them leaves every slot of the block with zero net constructions |
| `Lifetimes.TeardownAsWrittenMisses` | vector.h:96-98 | `(arr_ + 1)->~T()` over `size >= 1` iterations destroys slot 1 `size` times and never destroys slot 0, so the elements are not each destroyed once |
| `Lifetimes.TeardownDestroysEachOnce` | vector.h:96-98 | the intended teardown destroys each live slot exactly once |
| `MyVector.Reserve` | my_vector.cpp:21-70 | same algorithm as vector.h. `n <= cap` is a no-op, and a failure rolls back with the vector unchanged. Success keeps the contents with capacity `max(cap, n)`. `bad_alloc` is raised exactly when `n > cap` and the allocation fails; otherwise success holds exactly when no copy of the `size` elements throws |
| `MyVector.PushBack` | my_vector.cpp:95-132 | appends `value`; the capacity doubles (or becomes 1) only when `size == cap`; a failure leaves the vector unchanged. `bad_alloc` is raised exactly when the vector is full and the allocation fails. In place, success holds exactly when the copy into slot `size` does not throw; when growing, exactly when no copy into `0..size` throws |
| `MyVector.PopBack` | my_vector.cpp:135-140 | decrements the size, keeps the remaining elements and the capacity |
| `MyVector.Resize` | my_vector.cpp:73-92 | `n > cap` reserves exactly `n`, and only that `reserve` can throw. Construction failures are swallowed. The size never increases and is cut to `n` only when `n < size` |
| `MyVector.ResizeTraced` | my_vector.cpp:73-92 | the loops agree with `Resize`. Shrinking traces nothing. Without reallocation, `i` is the first slot in `size..n-1` whose copy throws (or `n`): the trace is the constructions of `size..i-1`, then, when `i < n`, `i - size` destructions of slot `i` (as written) |
| `MyVector.ResizeFixed` | my_vector.cpp:73-92 | intended `resize`: success gives size `n` with prefix or copies and capacity `max(cap, n)`; a failure keeps the contents |
| `MyVector.ResizeNeverGrows` | my_vector.cpp:88-90 | `resize(2, x)` on an empty vector succeeds with capacity 2 but size 0, whereas the intended version holds `[x, x]` |
| `MyVector.ResizeUpKeepsContents` | my_vector.cpp:78-91 | as written, `resize(n)` with `n >= size` never changes the contents |
| `MyVector.ResizeRevisionsAgreeOnContents` | my_vector.cpp:73-92 | both `resize` revisions agree when shrinking; the intended one matches vector.h's contents whenever both succeed |
| `Iterators.DerefReadsSlot` | iterator.h:17-41 | `*it` reads the wrapped position; after `++`/`--` it reads the next/previous slot |
| `Iterators.IncrementDecrementRoundTrip` | iterator.h:27-41 | `++` then `--` (and the reverse) restores the position |
| `Iterators.PostfixMatchesPrefix` | iterator.h:32-47 | postfix `++`/`--` return the old iterator and move it like the prefix forms |
| `Iterators.AdvanceMoves` | iterator.h:27-30 | `k` increments move the position by `k` |
| `Iterators.AdvanceReads` | iterator.h:17-30 | after `k` increments `*it` reads the element `k` slots later |
| `Iterators.ComparisonLaws` | iterator.h:50-72 | `==` is position equality and `!=` its negation; `a < b` iff `b > a`; `a <= b` iff `!(a > b)`; `a >= b` iff `!(a < b)` |
| `Iterators.LessIsStrictTotalOrder` | iterator.h:66-68 | `<` is irreflexive, transitive and total |
| `Iterators.IncrementIsLater` | iterator.h:27-41 | `it < ++it` and `--it < it` |
| `ReverseIterators.BaseRoundTrip` | reverse_iterator.h:27-29 | `base()` returns the wrapped iterator unchanged |
| `ReverseIterators.DerefReadsBeforeBase` | reverse_iterator.h:49-53 | `*r` reads position `base() - 1` |
| `ReverseIterators.IncrementDecrementRoundTrip` | reverse_iterator.h:71-85 | `++r` moves the base back one and `--r` forward one; each undoes the other |
| `ReverseIterators.PostfixMatchesPrefix` | reverse_iterator.h:76-91 | postfix forms return the prior adapter and move like prefix forms |
| `ReverseIterators.PlusIsRepeatedIncrement` | reverse_iterator.h:93-121 | `r + n` equals `n` increments (base `current - n`) and `(r + n) - n == r` |
| `ReverseIterators.AdvanceReadsBackwards` | reverse_iterator.h:71-74 | after `k` increments `*r` reads position `base() - 1 - k` |
| `ReverseIterators.IndexZeroIsDeref` | reverse_iterator.h:67-69 | as written `r[0]` equals `*r` |
| `ReverseIterators.IndexAgreesWithOffsetOnlyAtZero` | reverse_iterator.h:67-69 | as written `r[n]` reads the slot of `*(r + n)` if and only if `n == 0` |
| `ReverseIterators.IndexCounterexample` | reverse_iterator.h:67-69 | over `[10, 20, 30]` with base 2, `r[1]` reads 30 but `*(r + 1)` reads 10 |
| `ReverseIterators.IndexFixedIsOffsetDeref` | reverse_iterator.h:67-69 | with `*(current - (n + 1))`, `r[n] == *(r + n)` for all `n` |
| `ReverseIterators.ComparisonsFollowBase` | reverse_iterator.h:123-157 | all six comparisons compare the bases in the operator's own direction |
| `ReverseIterators.LessContradictsTraversal` | reverse_iterator.h:153-157 | as written, `r < r + n` is false and `r + n < r` true for `n > 0` |
| `ReverseIterators.LessFixedFollowsTraversal` | reverse_iterator.h:135-157 | with reversed base comparison, `r < r + n` for `n > 0`, `r < ++r`, `<` is a strict total order, and `<=`/`>=` negate `>`/`<` |
| `BackInsert.BackInserter` | back_insert_iterator.h:47-50 | `back_inserter(c)` is bound to `c` |
| `BackInsert.Assign` | back_insert_iterator.h:22-31 | assignment (lvalue or rvalue) appends `value` on success, leaves everything unchanged on failure, never lowers the capacity |
| `BackInsert.AssignIsPushBack` | back_insert_iterator.h:22-31 | assigning through `back_inserter(c)` gives exactly `c.push_back(value)`'s outcome and container |
| `BackInsert.IncrementAndDerefAreIdentity` | back_insert_iterator.h:34-44 | `++it`, `it++` and `*it` return the adapter itself, so `*it = v` and `*it++ = v` equal `it = v` |
| `BackInsert.AssignAll` | back_insert_iterator.h:22-25 | assigning `v1..vk` appends a prefix of them in order; all of them when no assignment throws |
| `BackInsert.AssignAllIsPushAll` | back_insert_iterator.h:22-25 | with no faults the sequence of assignments equals the sequence of `push_back`s |
| `UniquePtr.Default` | smart_pointers/unique_ptr.h:58-60 | default and `nullptr` construction give a null holder: `operator bool` false, equal to `nullptr`, destruction deletes nothing |
| `UniquePtr.FromPointer` | smart_pointers/unique_ptr.h:62-66 | the pointer constructor holds `p`; `operator bool` is true iff `p` is not null |
| `UniquePtr.Release` | smart_pointers/unique_ptr.h:146-150 | `release()` returns the previous pointer and leaves the holder null with the same deleter |
| `UniquePtr.ReleaseHandsOverOwnership` | smart_pointers/unique_ptr.h:271-275 | released ownership passes to the caller; destroying the released holder deletes nothing |
| `UniquePtr.MoveConstruct` | smart_pointers/unique_ptr.h:72-75 | the move constructor transfers pointer and deleter and nulls the source |
| `UniquePtr.MoveConstructConserves` | smart_pointers/unique_ptr.h:216-218 | moving conserves ownership, and destroying both holders afterwards deletes the pointer exactly once |
| `UniquePtr.Reset` | smart_pointers/unique_ptr.h:136-138 | scalar `reset(p)` stores `p` and calls no deleter; array `reset(p)` calls the old deleter once on the old pointer when it is non-null |
| `UniquePtr.ScalarResetLeaks` | smart_pointers/unique_ptr.h:136-138 | scalar `reset(q)` on a holder of `p != q` neither keeps nor deletes `p` |
| `UniquePtr.ResetFixed` | smart_pointers/unique_ptr.h:279-285 | the corrected scalar reset conserves ownership: the old pointer is deleted at most once and the new one taken in |
| `UniquePtr.ArrayResetConserves` | smart_pointers/unique_ptr.h:279-285 | the array `reset` conserves ownership |
| `UniquePtr.ArrayResetChainDeletesEveryPointer` | smart_pointers/unique_ptr.h:233-285 | resetting an array holder through `ps` and destroying it deletes every non-null pointer it ever owned |
| `UniquePtr.ScalarResetChainDeletesOnlyLast` | smart_pointers/unique_ptr.h:88-138 | resetting a scalar holder through `ps` and destroying it deletes only the last pointer |
| `UniquePtr.MoveAssign` | smart_pointers/unique_ptr.h:101-107 | self move-assignment is a no-op. Otherwise the destination takes the source's pointer and deleter, the source becomes null, and the deleter calls are those of `reset` |
| `UniquePtr.ArrayMoveAssignConserves` | smart_pointers/unique_ptr.h:241-247 | array move assignment conserves ownership across the two holders |
| `UniquePtr.ScalarMoveAssignLeaks` | smart_pointers/unique_ptr.h:101-107 | scalar move assignment conserves ownership iff it is a self-assignment or the destination was null |
| `UniquePtr.MoveAssignFixed` | smart_pointers/unique_ptr.h:101-107 | move assignment over the corrected reset always conserves ownership |
| `UniquePtr.AssignNull` | smart_pointers/unique_ptr.h:109-112 | `= nullptr` nulls the holder and keeps its deleter; the scalar form deletes nothing, the array form passes what it held, if non-null, to the holder's own deleter |
| `UniquePtr.Destroy` | smart_pointers/unique_ptr.h:88-92 | the destructor deletes exactly what is owned. The scalar form makes at most one call, to the holder's own deleter on its non-null pointer; the array form calls it unconditionally (smart_pointers/unique_ptr.h:233-235) |
| `UniquePtr.SwapConserves` | smart_pointers/unique_ptr.h:140-144 | `swap` exchanges pointers and deleters, conserves ownership and is its own inverse |
| `UniquePtr.ComparisonsCompareGet` | smart_pointers/unique_ptr.h:322-350 | `==`/`!=` between holders and against `nullptr` compare `get()` values |

## Left out

- `allocator.h`: the vector does not use it.
- `main.cpp`: a console demo of `std::vector`.
- `my_vector.h`: declarations only. Its `empty` is declared but never defined.
- vector.h defines no `value_type`, so `back_insert_iterator<vector<T>>`, whose assignments name `Container::value_type` (back_insert_iterator.h:22, 28), cannot be instantiated over it as written. The model connects the two as their bodies intend.
- `explicit constexpr reverse_iterator(Iter other) = default;` (reverse_iterator.h:32) is ill-formed: a converting constructor cannot be defaulted. The model takes it to store `other` as `current`.
- `base_iterator<bool, T>`, which vector.h names for its iterator types, is not defined anywhere. `begin`/`end`/`cbegin`/`cend` are modelled as positions `0` and `size()`, and const iterators are not told apart from mutable ones.
- Integer width: `size_t` overflow is not modelled. `cap_ * 2` wraps only at capacities near 2^63. The byte count `new_cap * sizeof(T)` (vector.h:66 and 127, my_vector.cpp:33) wraps in a single `reserve(n)` or `resize(n)` with `n > SIZE_MAX / sizeof(T)`. `new` then returns a block that is too small while `cap_` records `n`. The result is silent memory corruption, not an exception, and a model over unbounded `nat` capacities with a sequence for the contents cannot represent it.
- The default argument `value = T()` of `resize` is not modelled: the value is always passed explicitly.
- `back_insert_iterator` holds a `Container*` (back_insert_iterator.h:9, 20). The model keeps the container's state inside the adapter and threads it through each result, so aliasing is not modelled. Two copies of one adapter, or the adapter and the caller's `c`, do not see each other's `push_back`s: `auto b = a; a = 1; b = 2;` leaves one container `[1, 2]` in C++ but two diverging states in the model.
- `push_back(std::move(value))` in the rvalue assignment of `back_insert_iterator` reaches the vector's only `push_back(const T&)`. Both overloads are therefore modelled by one `Assign`.
- Raw memory mechanics are abstracted into sequence updates and the construct/destroy trace: `reinterpret_cast`, placement new, `delete[]`, `operator->`, unique_ptr's `operator*`/`operator[]`, and `get_deleter`.
- Neither vector revision defines a destructor, a copy constructor or an assignment operator. Nothing of the kind is modelled.
- unique_ptr is left out in these parts:
  - the converting `U`/`E` constructors and assignments;
  - the `Deleter` structs (a deleter is an opaque value, and its moved-from state is kept as the same value);
  - the `std::less` relational operators over raw addresses;
  - `operator<<` and `make_unique`;
  - the free `swap`, which targets `std::unique_ptr`;
  - the template constraints `requires std::is_array_v<U>` on the array form's pointer constructors and `reset` (smart_pointers/unique_ptr.h:200-210, 277-279). With `U*` deduced from a plain `T*` argument they reject every call, so `reset`, move assignment and `= nullptr` of `unique_ptr<T[]>` cannot be instantiated as written. The model ignores these constraints and gives the operations the behaviour of their bodies.
- Iterator dereference and reverse `operator[]` outside the sequence are undefined behaviour in the source. The model makes them preconditions.
- MyVector.ResizeTraced: when `n > capacity` and `reserve` runs first, only the agreement with `Resize` is stated, not the trace of the constructions into the new block.

## Findings

| source | as written | input that shows it | evidently intended | confidence | as-written member | corrected member |
|---|---|---|---|---|---|---|
| reverse_iterator.h:67-69 | `r[n]` returns `*(current + (n - 1))` | base at slot 2 over `[10, 20, 30]`, `n = 1`: reads 30 where `*(r + 1)` is 10 | `*(current - (n + 1))`, which the declaration's own `noexcept` clause names; then `r[n] == *(r + n)` | high; not executed | `ReverseIterators.IndexCounterexample` | `ReverseIterators.IndexFixedIsOffsetDeref` |
| reverse_iterator.h:135-157 | `<`, `<=`, `>`, `>=` compare the bases in the operator's own direction | any `r` and `r + 1`: `r < r + 1` is false | compare the bases in the opposite direction, so that an adapter advanced further compares greater | high; not executed | `ReverseIterators.LessContradictsTraversal` | `ReverseIterators.LessFixedFollowsTraversal` |
| vector.h:84-86 (also vector.h:169-171, my_vector.cpp:51-53, 108-110, 84-86) | the rollback loop destroys `new_arr + i` on every iteration | `reserve(4)` on two elements with the copy into slot 1 throwing: slot 0 is never destroyed and the empty slot 1 is destroyed | destroy `new_arr + j` | high; not executed | `Lifetimes.RollbackAsWrittenLeaks` | `Lifetimes.RollbackBalances` |
| vector.h:96-98 (also vector.h:176-178, my_vector.cpp:63-65, 115-117) | the teardown of the old block destroys `arr_ + 1` on every iteration | `reserve(4)` on one element destroys the empty slot 1 and never slot 0 | destroy `arr_ + i` | high; not executed | `Lifetimes.TeardownAsWrittenMisses` | `Lifetimes.TeardownDestroysEachOnce` |
| vector.h:147 | the growing branch of `resize` frees the old block without destroying its elements | `resize(3)` on one element with capacity 1: slot 0 of the old block is never destroyed | destroy slots `0..sz_-1` before the `delete[]` | high; not executed | `Vectors.ResizeGrowLeaksOldElements` | `Vectors.ResizeGrowWithTeardownBalances` |
| vector.h:110 | the in-place guard is `n > sz_ && n <= cap_`, so `n == sz_` takes the reallocating branch | `resize(1)` on one element with capacity 1: capacity becomes 2 | `resize(size())` is a no-op | medium; not executed | `Vectors.ResizeToSameSizeReallocates` | `Vectors.ResizeFixed` |
| my_vector.cpp:78-91 | the copies are constructed but `sz_` is only ever lowered, and the `catch` swallows the exception. The shrink path (:88-90) lowers `sz_` without destroying slots `n..sz_-1`: the trace of `MyVector.ResizeTraced` is empty for `n <= size` | `resize(2, x)` on an empty vector: size stays 0. `resize(0)` on one element: its destructor never runs | size becomes `n`, a failed copy is rolled back and rethrown, and shrinking destroys the dropped slots as vector.h:106-109 does (`Vectors.ResizeTraced`) | high; not executed | `MyVector.ResizeNeverGrows` | `MyVector.ResizeFixed` |
| smart_pointers/unique_ptr.h:136-138 | scalar `reset` overwrites `ptr` without deleting the old pointer; move assignment and `= nullptr` go through it | a holder of `p` reset to `q != p`: `p` is never deleted | pass the old pointer to the deleter when non-null, as the array form does | high; not executed | `UniquePtr.ScalarResetLeaks` | `UniquePtr.ResetFixed` |

=== FILE: back_insert_iterator.dfy ===
/** The output adapter of back_insert_iterator.h.

    The C++ adapter holds a pointer to a container and turns assignment into
    `push_back` on it.  The model holds the state of that container (the
    container of module Vectors) and returns the updated state together with
    the outcome of the `push_back`. */
module BackInsert {
  import opened Outcomes
  import Vectors

  datatype BackInsertIterator<T> = BackInsertIterator(container: Vectors.Vector<T>)

  /** `back_inserter(c)` */
  function BackInserter<T>(c: Vectors.Vector<T>): (it: BackInsertIterator<T>)
    ensures it.container == c
  {
    BackInsertIterator(c)
  }

  /** `it = value`, for the lvalue and the rvalue overload alike (both call
      the container's single `push_back`). */
  function Assign<T>(it: BackInsertIterator<T>, value: T, faults: Faults): (r: (Outcome, BackInsertIterator<T>))
    requires it.container.Valid()
    ensures r.1.container.Valid()
    ensures r.0.Done? ==> r.1.container.elems == it.container.elems + [value]
    ensures r.0.Threw? ==> r.1 == it
    ensures r.1.container.cap >= it.container.cap
  {
    var step := Vectors.PushBack(it.container, value, faults);
    (step.outcome, BackInsertIterator(step.after))
  }

  /** `++it` */
  function PreIncrement<T>(it: BackInsertIterator<T>): BackInsertIterator<T>
  {
    it
  }

  /** `it++`: the copy returned; the adapter itself is unchanged. */
  function PostIncrement<T>(it: BackInsertIterator<T>): BackInsertIterator<T>
  {
    it
  }

  /** `*it` */
  function Deref<T>(it: BackInsertIterator<T>): BackInsertIterator<T>
  {
    it
  }

  /** `*it++ = v` repeated over `values`, each assignment with its own
      environment; the first exception stops the sequence. */
  function AssignAll<T>(it: BackInsertIterator<T>, values: seq<T>, faults: seq<Faults>)
    : (r: (Outcome, BackInsertIterator<T>))
    requires it.container.Valid() && |faults| == |values|
    ensures r.1.container.Valid()
    ensures |it.container.elems| <= |r.1.container.elems| <= |it.container.elems| + |values|
    ensures r.1.container.elems
         == it.container.elems + values[..|r.1.container.elems| - |it.container.elems|]
    ensures r.0.Done? ==> r.1.container.elems == it.container.elems + values
    decreases |values|
  {
    if |values| == 0 then (Done, it)
    else
      var first := Assign(PostIncrement(Deref(it)), values[0], faults[0]);
      if first.0.Threw? then (first.0, it)
      else
        var rest := AssignAll(first.1, values[1..], faults[1..]);
        assert values[1..][..|rest.1.container.elems| - |first.1.container.elems|]
            == values[1..|rest.1.container.elems| - |it.container.elems|];
        rest
  }

  /** Assignment through the adapter is exactly the container's `push_back`,
      and the adapter stays bound to the updated container. */
  lemma AssignIsPushBack<T>(c: Vectors.Vector<T>, value: T, faults: Faults)
    requires c.Valid()
    ensures Assign(BackInserter(c), value, faults).0 == Vectors.PushBack(c, value, faults).outcome
    ensures Assign(BackInserter(c), value, faults).1 == BackInserter(Vectors.PushBack(c, value, faults).after)
  {
  }

  /** `++` in either form and `*` hand back the adapter itself, so
      `*it = v` and `*it++ = v` are the same as `it = v`. */
  lemma IncrementAndDerefAreIdentity<T>(it: BackInsertIterator<T>, value: T, faults: Faults)
    requires it.container.Valid()
    ensures PreIncrement(it) == it && PostIncrement(it) == it && Deref(it) == it
    ensures Assign(Deref(it), value, faults) == Assign(it, value, faults)
    ensures Assign(PostIncrement(Deref(it)), value, faults) == Assign(it, value, faults)
  {
  }

  /** When nothing fails, assigning `values` through `back_inserter(c)`
      appends them in order, exactly as the sequence of `push_back`s does. */
  lemma {:induction false} AssignAllIsPushAll<T>(c: Vectors.Vector<T>, values: seq<T>)
    requires c.Valid()
    ensures AssignAll(BackInserter(c), values, seq(|values|, _ => NoFaults)).0.Done?
    ensures AssignAll(BackInserter(c), values, seq(|values|, _ => NoFaults)).1.container
         == Vectors.PushAll(c, values)
    decreases |values|
  {
    if |values| > 0 {
      var faults := seq(|values|, _ => NoFaults);
      assert faults[0] == NoFaults;
      assert faults[1..] == seq(|values| - 1, _ => NoFaults);
      var next := Vectors.PushBack(c, values[0], NoFaults).after;
      AssignAllIsPushAll(next, values[1..]);
    }
  }
}

=== FILE: iterator.dfy ===
/** The pointer-wrapping random-access iterator of iterator.h.

    The wrapped raw pointer `T* ptr` is modelled as an integer position into
    the sequence of slots it points into; dereferencing reads that slot. */
module Iterators {

  datatype Iterator = Iterator(pos: int)

  /** `*it` */
  function Deref<T>(it: Iterator, s: seq<T>): T
    requires 0 <= it.pos < |s|
  {
    s[it.pos]
  }

  /** `++it`: the iterator after the increment, which is also what is returned. */
  function PreIncrement(it: Iterator): Iterator
  {
    Iterator(it.pos + 1)
  }

  /** `it++`: (the copy returned, the iterator afterwards). */
  function PostIncrement(it: Iterator): (Iterator, Iterator)
  {
    var copy := it;
    (copy, Iterator(it.pos + 1))
  }

  /** `--it` */
  function PreDecrement(it: Iterator): Iterator
  {
    Iterator(it.pos - 1)
  }

  /** `it--`: (the copy returned, the iterator afterwards). */
  function PostDecrement(it: Iterator): (Iterator, Iterator)
  {
    var copy := it;
    (copy, Iterator(it.pos - 1))
  }

  predicate Equal(a: Iterator, b: Iterator)     { a.pos == b.pos }
  predicate NotEqual(a: Iterator, b: Iterator)  { a.pos != b.pos }
  predicate Greater(a: Iterator, b: Iterator)   { a.pos > b.pos }
  predicate GreaterEq(a: Iterator, b: Iterator) { a.pos >= b.pos }
  predicate Less(a: Iterator, b: Iterator)      { a.pos < b.pos }
  predicate LessEq(a: Iterator, b: Iterator)    { a.pos <= b.pos }

  /** `k` prefix increments in a row. */
  function Advance(it: Iterator, k: nat): Iterator
  {
    if k == 0 then it else PreIncrement(Advance(it, k - 1))
  }

  /** Dereferencing reads the element the iterator designates, and a prefix
      increment moves to the next slot and a decrement to the previous one. */
  lemma DerefReadsSlot<T>(it: Iterator, s: seq<T>)
    requires 0 <= it.pos < |s|
    ensures Deref(it, s) == s[it.pos]
    ensures it.pos + 1 < |s| ==> Deref(PreIncrement(it), s) == s[it.pos + 1]
    ensures 0 < it.pos ==> Deref(PreDecrement(it), s) == s[it.pos - 1]
  {
  }

  /** Incrementing then decrementing (or the reverse) restores the position. */
  lemma IncrementDecrementRoundTrip(it: Iterator)
    ensures PreDecrement(PreIncrement(it)) == it
    ensures PreIncrement(PreDecrement(it)) == it
  {
  }

  /** The postfix forms return the unchanged iterator and move it exactly as
      the prefix forms do. */
  lemma PostfixMatchesPrefix(it: Iterator)
    ensures PostIncrement(it).0 == it && PostIncrement(it).1 == PreIncrement(it)
    ensures PostDecrement(it).0 == it && PostDecrement(it).1 == PreDecrement(it)
  {
  }

  /** `k` increments move the position by exactly `k`. */
  lemma {:induction false} AdvanceMoves(it: Iterator, k: nat)
    ensures Advance(it, k).pos == it.pos + k
  {
    if k > 0 {
      AdvanceMoves(it, k - 1);
    }
  }

  /** After `k` increments the iterator reads the element `k` slots later. */
  lemma {:induction false} AdvanceReads<T>(it: Iterator, k: nat, s: seq<T>)
    requires 0 <= it.pos + k < |s|
    ensures 0 <= Advance(it, k).pos < |s|
    ensures Deref(Advance(it, k), s) == s[it.pos + k]
  {
    AdvanceMoves(it, k);
  }

  /** `==` is equality of positions and `!=` its negation; the four relational
      operators follow position order and are each other's mirror images. */
  lemma ComparisonLaws(a: Iterator, b: Iterator)
    ensures Equal(a, b) <==> a == b
    ensures NotEqual(a, b) <==> !Equal(a, b)
    ensures Less(a, b) <==> Greater(b, a)
    ensures LessEq(a, b) <==> !Greater(a, b)
    ensures GreaterEq(a, b) <==> !Less(a, b)
    ensures LessEq(a, b) <==> Less(a, b) || Equal(a, b)
  {
  }

  /** `<` is a strict total order on iterators. */
  lemma LessIsStrictTotalOrder(a: Iterator, b: Iterator, c: Iterator)
    ensures !Less(a, a)
    ensures Less(a, b) && Less(b, c) ==> Less(a, c)
    ensures Less(a, b) || Equal(a, b) || Less(b, a)
  {
  }

  /** An increment moves strictly forward in the order. */
  lemma IncrementIsLater(it: Iterator)
    ensures Less(it, PreIncrement(it))
    ensures Less(PreDecrement(it), it)
  {
  }
}

=== FILE: lifetimes.dfy ===
/** Object lifetimes inside the container's raw blocks.

    The container separates the memory it owns from the objects it has
    constructed in that memory.  The model records, for one operation, the
    sequence of placement-new constructions, explicit destructor calls and
    block releases it performs, so that the balance between constructions and
    destructions of every slot can be stated and checked. */
module Lifetimes {
  import opened Outcomes

  /** The block the container owns when the operation starts, and the new
      block a reallocating operation allocates. */
  datatype Block = Current | Fresh

  datatype Event =
    | Construct(block: Block, slot: nat)  // `new (p + slot) T(...)`
    | Destroy(block: Block, slot: nat)    // `(p + slot)->~T()`
    | Release(block: Block)               // `delete[] reinterpret_cast<std::byte*>(p)`

  /** Number of occurrences of `e` in `events`. */
  function Count(events: seq<Event>, e: Event): nat
    decreases |events|
  {
    if |events| == 0 then 0
    else Count(events[..|events| - 1], e) + (if events[|events| - 1] == e then 1 else 0)
  }

  /** Constructions minus destructions of one slot: 1 for a live object,
      0 for raw memory, anything else is a leak or a destructor run on memory
      that holds no object. */
  function Net(events: seq<Event>, b: Block, slot: nat): int
  {
    Count(events, Construct(b, slot)) - Count(events, Destroy(b, slot))
  }

  /** Constructions of slots `lo .. hi-1` in increasing order. */
  function Constructs(b: Block, lo: nat, hi: nat): seq<Event>
    decreases hi
  {
    if hi <= lo then [] else Constructs(b, lo, hi - 1) + [Construct(b, hi - 1)]
  }

  /** Destructions of slots `lo .. hi-1` in increasing order. */
  function Destroys(b: Block, lo: nat, hi: nat): seq<Event>
    decreases hi
  {
    if hi <= lo then [] else Destroys(b, lo, hi - 1) + [Destroy(b, hi - 1)]
  }

  /** `k` copies of the same event. */
  function Repeat(e: Event, k: nat): seq<Event>
  {
    if k == 0 then [] else Repeat(e, k - 1) + [e]
  }

  /** The unwinding loop of a failed transfer as the source writes it: the
      loop variable runs over `lo .. i-1` but the destroyed slot is always `i`,
      the slot whose construction just threw. */
  function RollbackAsWritten(b: Block, lo: nat, i: nat): seq<Event>
    requires lo <= i
  {
    Repeat(Destroy(b, i), i - lo)
  }

  /** The unwinding loop as intended: destroy each of the slots `lo .. i-1`
      that were constructed before the throw. */
  function Rollback(b: Block, lo: nat, i: nat): seq<Event>
  {
    Destroys(b, lo, i)
  }

  /** The loop that retires the old elements after a successful transfer, as
      written: `size` destructor calls, all on slot 1. */
  function TeardownAsWritten(size: nat): seq<Event>
  {
    Repeat(Destroy(Current, 1), size)
  }

  /** The same loop as intended: each live slot `0 .. size-1` once. */
  function Teardown(size: nat): seq<Event>
  {
    Destroys(Current, 0, size)
  }

  /** Every slot of block `b` ends with as many destructions as constructions. */
  ghost predicate Unwound(events: seq<Event>, b: Block)
  {
    forall s: nat :: Net(events, b, s) == 0
  }

  /** Each of the `size` live slots of `b` is destroyed exactly once and no
      other slot of `b` is destroyed. */
  ghost predicate DestroysEachOnce(events: seq<Event>, b: Block, size: nat)
  {
    forall s: nat :: Count(events, Destroy(b, s)) == (if s < size then 1 else 0)
  }

  lemma CountSnoc(events: seq<Event>, x: Event, e: Event)
    ensures Count(events + [x], e) == Count(events, e) + (if x == e then 1 else 0)
  {
    assert (events + [x])[..|events + [x]| - 1] == events;
  }

  lemma {:induction false} CountAppend(a: seq<Event>, b: seq<Event>, e: Event)
    ensures Count(a + b, e) == Count(a, e) + Count(b, e)
    decreases |b|
  {
    if |b| == 0 {
      assert a + b == a;
    } else {
      var init := b[..|b| - 1];
      var last := b[|b| - 1];
      assert b == init + [last];
      assert a + b == (a + init) + [last];
      CountAppend(a, init, e);
      CountSnoc(a + init, last, e);
      CountSnoc(init, last, e);
    }
  }

  lemma {:induction false} CountConstructs(b: Block, lo: nat, hi: nat, e: Event)
    ensures Count(Constructs(b, lo, hi), e)
         == (if e.Construct? && e.block == b && lo <= e.slot < hi then 1 else 0)
    decreases hi
  {
    if hi > lo {
      CountConstructs(b, lo, hi - 1, e);
      CountSnoc(Constructs(b, lo, hi - 1), Construct(b, hi - 1), e);
    }
  }

  lemma {:induction false} CountDestroys(b: Block, lo: nat, hi: nat, e: Event)
    ensures Count(Destroys(b, lo, hi), e)
         == (if e.Destroy? && e.block == b && lo <= e.slot < hi then 1 else 0)
    decreases hi
  {
    if hi > lo {
      CountDestroys(b, lo, hi - 1, e);
      CountSnoc(Destroys(b, lo, hi - 1), Destroy(b, hi - 1), e);
    }
  }

  lemma {:induction false} CountRepeat(x: Event, k: nat, e: Event)
    ensures Count(Repeat(x, k), e) == (if x == e then k else 0)
  {
    if k > 0 {
      CountRepeat(x, k - 1, e);
      CountSnoc(Repeat(x, k - 1), x, e);
    }
  }

  /** The intended unwinding returns every slot constructed before the throw
      to raw memory. */
  lemma RollbackBalances(b: Block, lo: nat, i: nat)
    ensures Unwound(Constructs(b, lo, i) + Rollback(b, lo, i), b)
  {
    forall s: nat ensures Net(Constructs(b, lo, i) + Rollback(b, lo, i), b, s) == 0 {
      CountAppend(Constructs(b, lo, i), Rollback(b, lo, i), Construct(b, s));
      CountAppend(Constructs(b, lo, i), Rollback(b, lo, i), Destroy(b, s));
      CountConstructs(b, lo, i, Construct(b, s));
      CountConstructs(b, lo, i, Destroy(b, s));
      CountDestroys(b, lo, i, Construct(b, s));
      CountDestroys(b, lo, i, Destroy(b, s));
    }
  }

  /** The balance of one slot after the constructions of `lo .. i-1` and
      the unwinding as written. */
  lemma NetAfterRollbackAsWritten(b: Block, lo: nat, i: nat, s: nat)
    requires lo <= i
    ensures Net(Constructs(b, lo, i) + RollbackAsWritten(b, lo, i), b, s)
         == (if lo <= s < i then 1 else 0) - (if s == i then i - lo else 0)
  {
    var built := Constructs(b, lo, i);
    var unwound := RollbackAsWritten(b, lo, i);
    CountAppend(built, unwound, Construct(b, s));
    CountAppend(built, unwound, Destroy(b, s));
    CountConstructs(b, lo, i, Construct(b, s));
    CountConstructs(b, lo, i, Destroy(b, s));
    CountRepeat(Destroy(b, i), i - lo, Construct(b, s));
    CountRepeat(Destroy(b, i), i - lo, Destroy(b, s));
    assert Count(built + unwound, Construct(b, s)) == (if lo <= s < i then 1 else 0);
    assert Count(built + unwound, Destroy(b, s)) == (if s == i then i - lo else 0);
  }

  /** The unwinding as written leaves the first constructed slot alive (a
      leak) and runs the destructor `i - lo` times on slot `i`, which holds no
      object. */
  lemma RollbackAsWrittenLeaks(b: Block, lo: nat, i: nat)
    requires lo < i
    ensures Net(Constructs(b, lo, i) + RollbackAsWritten(b, lo, i), b, lo) == 1
    ensures Net(Constructs(b, lo, i) + RollbackAsWritten(b, lo, i), b, i) == -(i - lo)
    ensures !Unwound(Constructs(b, lo, i) + RollbackAsWritten(b, lo, i), b)
  {
    NetAfterRollbackAsWritten(b, lo, i, lo);
    NetAfterRollbackAsWritten(b, lo, i, i);
  }

  /** The intended teardown destroys each live slot exactly once. */
  lemma TeardownDestroysEachOnce(size: nat)
    ensures DestroysEachOnce(Teardown(size), Current, size)
  {
    forall s: nat ensures Count(Teardown(size), Destroy(Current, s)) == (if s < size then 1 else 0) {
      CountDestroys(Current, 0, size, Destroy(Current, s));
    }
  }

  /** The teardown as written never destroys slot 0, and destroys slot 1
      once per element, even when slot 1 holds no object. */
  lemma TeardownAsWrittenMisses(size: nat)
    requires size >= 1
    ensures Count(TeardownAsWritten(size), Destroy(Current, 0)) == 0
    ensures Count(TeardownAsWritten(size), Destroy(Current, 1)) == size
    ensures !DestroysEachOnce(TeardownAsWritten(size), Current, size)
  {
    CountRepeat(Destroy(Current, 1), size, Destroy(Current, 0));
    CountRepeat(Destroy(Current, 1), size, Destroy(Current, 1));
    assert Count(TeardownAsWritten(size), Destroy(Current, 0)) != 1;
  }

  /** The construction loop shared by every transfer in the container:
      construct `items[k]` into slot `base + k` for increasing `k`, stopping at
      the first slot whose constructor throws.  Returns the values now in the
      slots, how many constructions succeeded, and the trace. */
  method ConstructEach<T>(b: Block, items: seq<T>, base: nat, throwsAt: set<nat>)
    returns (built: seq<T>, done: nat, events: seq<Event>)
    ensures done <= |items|
    ensures base + done == FirstThrow(throwsAt, base, base + |items|)
    ensures built == items[..done]
    ensures events == Constructs(b, base, base + done)
  {
    built, done, events := [], 0, [];
    while done < |items| && base + done !in throwsAt
      invariant done <= |items|
      invariant built == items[..done]
      invariant events == Constructs(b, base, base + done)
      invariant forall k :: base <= k < base + done ==> k !in throwsAt
    {
      built := built + [items[done]];
      events := events + [Construct(b, base + done)];
      done := done + 1;
    }
    FirstThrowIs(throwsAt, base, base + |items|, base + done);
  }

  /** `for (j = lo; j < hi; ++j) (p + j)->~T();` */
  method DestroyRange(b: Block, lo: nat, hi: nat) returns (events: seq<Event>)
    requires lo <= hi
    ensures events == Destroys(b, lo, hi)
  {
    events := [];
    var j := lo;
    while j < hi
      invariant lo <= j <= hi
      invariant events == Destroys(b, lo, j)
    {
      events := events + [Destroy(b, j)];
      j := j + 1;
    }
  }

  /** `for (j = lo; j < hi; ++j) (p + slot)->~T();` — the loop shape the
      source uses where the body names a fixed slot instead of `j`. */
  method DestroySlotRepeatedly(b: Block, slot: nat, lo: nat, hi: nat) returns (events: seq<Event>)
    requires lo <= hi
    ensures events == Repeat(Destroy(b, slot), hi - lo)
  {
    events := [];
    var j := lo;
    while j < hi
      invariant lo <= j <= hi
      invariant events == Repeat(Destroy(b, slot), j - lo)
    {
      events := events + [Destroy(b, slot)];
      j := j + 1;
    }
  }
}

=== FILE: my_vector.dfy ===
/** The earlier revision of the container, my_vector.cpp.

    Its `reserve`, `push_back` and `pop_back` are the same algorithms as in
    vector.h, so they are stated here in terms of module Vectors.  Its
    `resize` is different: it reserves exactly `n`, constructs copies of the
    value past the end, swallows a throwing constructor, and changes `sz_`
    only when shrinking. */
module MyVector {
  import opened Outcomes
  import opened Lifetimes
  import opened Vectors

  function Min(a: nat, b: nat): nat
  {
    if a < b then a else b
  }

  /** `reserve(new_cap)` (my_vector.cpp) */
  function Reserve<T>(v: Vector<T>, n: nat, faults: Faults): (r: Step<T>)
    requires v.Valid()
    ensures r.after.Valid()
    ensures n <= v.cap ==> r == Step(Done, v)
    ensures r.outcome.Threw? ==> r.after == v
    ensures r.outcome.Done? ==> r.after.elems == v.elems && r.after.cap == Max(v.cap, n)
    ensures r.outcome == Threw(BadAlloc) <==> n > v.cap && faults.allocFails
    ensures n > v.cap && !faults.allocFails ==>
              (r.outcome.Done? <==> forall k :: 0 <= k < |v.elems| ==> k !in faults.throwsAt)
    ensures n > v.cap && !faults.allocFails && faults.throwsAt == {} ==> r.outcome.Done?
  {
    Vectors.Reserve(v, n, faults)
  }

  /** `push_back(value)` (my_vector.cpp) */
  function PushBack<T>(v: Vector<T>, value: T, faults: Faults): (r: Step<T>)
    requires v.Valid()
    ensures r.after.Valid()
    ensures r.outcome.Threw? ==> r.after == v
    ensures r.outcome.Done? ==> r.after.elems == v.elems + [value]
    ensures r.outcome.Done? && |v.elems| == v.cap ==> r.after.cap == GrownCapacity(v.cap)
    ensures r.outcome.Done? && |v.elems| < v.cap ==> r.after.cap == v.cap
    ensures r.outcome == Threw(BadAlloc) <==> |v.elems| == v.cap && faults.allocFails
    ensures |v.elems| < v.cap ==> (r.outcome.Done? <==> |v.elems| !in faults.throwsAt)
    ensures |v.elems| == v.cap && !faults.allocFails ==>
              (r.outcome.Done? <==> forall k :: 0 <= k <= |v.elems| ==> k !in faults.throwsAt)
  {
    Vectors.PushBack(v, value, faults)
  }

  /** `pop_back()` (my_vector.cpp); undefined on an empty container. */
  function PopBack<T>(v: Vector<T>): (r: Vector<T>)
    requires v.Valid() && |v.elems| > 0
    ensures r.Valid() && r.cap == v.cap && |r.elems| == |v.elems| - 1
    ensures forall i :: 0 <= i < |r.elems| ==> r.elems[i] == v.elems[i]
  {
    Vectors.PopBack(v)
  }

  /** `resize(n, value)` as written in my_vector.cpp. */
  function Resize<T>(v: Vector<T>, n: nat, value: T, faults: Faults): (r: Step<T>)
    requires v.Valid()
    ensures r.after.Valid()
    ensures r.outcome.Threw? ==> r.after == v && n > v.cap
    ensures n > v.cap ==> r.outcome == Vectors.Reserve(v, n, faults).outcome
    ensures n <= v.cap ==> r.outcome.Done?
    ensures r.outcome.Done? ==> r.after.cap == Max(v.cap, n)
    ensures r.outcome.Done? ==> r.after.elems == v.elems[..Min(n, |v.elems|)]
    ensures |r.after.elems| <= |v.elems|
  {
    var reserved := if n > v.cap then Vectors.Reserve(v, n, faults) else Step(Done, v);
    if reserved.outcome.Threw? then reserved
    else
      var u := reserved.after;
      // Copies of `value` go into slots `sz_ .. n-1`, but `sz_` is not
      // advanced over them and a throwing copy is caught and dropped.
      Step(Done, if n < |u.elems| then Vector(u.elems[..n], u.cap) else u)
  }

  /** `resize` with its evident intent: after success the size is `n`, the
      new slots hold copies of `value`, and a throwing copy is rolled back and
      reported instead of swallowed. */
  function ResizeFixed<T>(v: Vector<T>, n: nat, value: T, faults: Faults): (r: Step<T>)
    requires v.Valid()
    ensures r.after.Valid()
    ensures r.outcome.Done? ==> |r.after.elems| == n && r.after.cap == Max(v.cap, n)
    ensures r.outcome.Done? ==>
              r.after.elems == (if n < |v.elems| then v.elems[..n] else v.elems + Copies(value, n - |v.elems|))
    ensures r.outcome.Threw? ==> r.after.elems == v.elems
    ensures !faults.allocFails && faults.throwsAt == {} ==> r.outcome.Done?
  {
    var reserved := if n > v.cap then Vectors.Reserve(v, n, faults) else Step(Done, v);
    if reserved.outcome.Threw? then reserved
    else
      var u := reserved.after;
      var sz := |u.elems|;
      if n <= sz then Step(Done, Vector(u.elems[..n], u.cap))
      else
        var i := FirstThrow(faults.throwsAt, sz, n);
        if i < n then Step(Threw(ConstructorThrew(i)), u)
        else Step(Done, Vector(u.elems + Copies(value, n - sz), u.cap))
  }

  /** `resize(n, value)` following the source loop by loop.  When `n` exceeds
      the capacity the copies go into the block `reserve` has just installed. */
  method ResizeTraced<T>(v: Vector<T>, n: nat, value: T, faults: Faults)
    returns (out: Outcome, w: Vector<T>, events: seq<Event>)
    requires v.Valid()
    ensures Step(out, w) == Resize(v, n, value, faults)
    ensures n <= |v.elems| ==> events == []
    ensures |v.elems| < n <= v.cap ==>
              var i := FirstThrow(faults.throwsAt, |v.elems|, n);
              events == Constructs(Current, |v.elems|, i)
                        + (if i < n then RollbackAsWritten(Current, |v.elems|, i) else [])
  {
    var u := v;
    events := [];
    if n > v.cap {
      var reserved;
      out, reserved, events := ReserveTraced(v, n, faults);
      if out.Threw? {
        return out, v, events;
      }
      u := reserved;
    }
    var sz := |u.elems|;
    var target := if n > v.cap then Fresh else Current;
    if sz < n {
      var built, done, made := ConstructEach(target, Copies(value, n - sz), sz, faults.throwsAt);
      events := events + made;
      if done < n - sz {
        // caught: the loop destroys slot `i` (not `j`) and does not rethrow
        var unwound := DestroySlotRepeatedly(target, sz + done, sz, sz + done);
        events := events + unwound;
      }
      assert n > v.cap || events == Constructs(Current, sz, sz + done)
                                   + (if sz + done < n then RollbackAsWritten(Current, sz, sz + done) else []);
    }
    if n < sz {
      return Done, Vector(u.elems[..n], u.cap), events;
    }
    return Done, u, events;
  }

  /** As written, `resize` never makes the container longer: growing an
      empty container to two copies leaves it empty, where the intended
      version holds the two copies. */
  lemma ResizeNeverGrows<T>(value: T)
    ensures Resize(New<T>(), 2, value, NoFaults).outcome.Done?
    ensures Resize(New<T>(), 2, value, NoFaults).after.Size() == 0
    ensures Resize(New<T>(), 2, value, NoFaults).after.Capacity() == 2
    ensures ResizeFixed(New<T>(), 2, value, NoFaults).after.elems == [value, value]
  {
  }

  /** As written, `resize(n)` with `n >= size()` leaves the contents alone
      whatever `n` and the faults are. */
  lemma ResizeUpKeepsContents<T>(v: Vector<T>, n: nat, value: T, faults: Faults)
    requires v.Valid() && n >= |v.elems|
    ensures Resize(v, n, value, faults).after.elems == v.elems
  {
  }

  /** The two revisions of `resize` agree when shrinking, and the intended
      `resize` agrees with vector.h's on contents whenever both succeed. */
  lemma ResizeRevisionsAgreeOnContents<T>(v: Vector<T>, n: nat, value: T, faults: Faults)
    requires v.Valid()
    ensures n < |v.elems| ==> Resize(v, n, value, faults) == ResizeFixed(v, n, value, faults)
    ensures ResizeFixed(v, n, value, faults).outcome.Done? && Vectors.Resize(v, n, value, faults).outcome.Done? ==>
              ResizeFixed(v, n, value, faults).after.elems == Vectors.Resize(v, n, value, faults).after.elems
  {
  }
}

=== FILE: outcomes.dfy ===
/** Failure outcomes of the container operations.

    The C++ container reports a failed allocation or a throwing element
    constructor by an exception that leaves the operation early.  The model
    turns the environment's behaviour into an explicit oracle (`Faults`) and
    the exception into a returned value (`Outcome`). */
module Outcomes {

  /** Why an operation stopped early. */
  datatype Fault =
    | BadAlloc                     // `new std::byte[...]` could not obtain the block
    | ConstructorThrew(slot: nat)  // placement-new of the element at `slot` threw

  /** `Done` when the operation returned normally, `Threw` when an exception left it. */
  datatype Outcome = Done | Threw(fault: Fault)

  /** The answers the environment gives during one call: whether the raw
      allocation fails, and the destination slots whose element constructor
      throws.  A slot index counts from the start of the block being filled. */
  datatype Faults = Faults(allocFails: bool, throwsAt: set<nat>)

  /** An environment in which nothing fails. */
  const NoFaults: Faults := Faults(false, {})

  /** The slot at which a loop constructing slots `lo, lo+1, ..., hi-1` in
      order stops: the first slot whose constructor throws, or `hi` when
      every construction succeeds. */
  function FirstThrow(throwsAt: set<nat>, lo: nat, hi: nat): (r: nat)
    requires lo <= hi
    ensures lo <= r <= hi
    ensures r < hi ==> r in throwsAt
    ensures forall k :: lo <= k < r ==> k !in throwsAt
    decreases hi - lo
  {
    if lo == hi then hi
    else if lo in throwsAt then lo
    else FirstThrow(throwsAt, lo + 1, hi)
  }

  /** The stopping slot is determined by the three facts a loop establishes. */
  lemma FirstThrowIs(throwsAt: set<nat>, lo: nat, hi: nat, i: nat)
    requires lo <= i <= hi
    requires forall k :: lo <= k < i ==> k !in throwsAt
    requires i < hi ==> i in throwsAt
    ensures FirstThrow(throwsAt, lo, hi) == i
  {
  }
}

=== FILE: reverse_iterator.dfy ===
/** The reverse adapter of reverse_iterator.h.

    A reverse iterator wraps a forward iterator `current` and designates the
    element just before it.  Incrementing it moves `current` backwards.
    Offsets are modelled on the wrapped iterator's position. */
module ReverseIterators {
  import Iterators

  datatype ReverseIterator = ReverseIterator(current: Iterators.Iterator)

  /** `r.base()` */
  function Base(r: ReverseIterator): Iterators.Iterator
  {
    r.current
  }

  /** `*r`: copy `current`, decrement the copy, dereference it. */
  function Deref<T>(r: ReverseIterator, s: seq<T>): T
    requires 0 <= r.current.pos - 1 < |s|
  {
    var tmp := Iterators.PreDecrement(r.current);
    Iterators.Deref(tmp, s)
  }

  /** `r[n]` as written: `*(current + (n - 1))`. */
  function Index<T>(r: ReverseIterator, n: int, s: seq<T>): T
    requires 0 <= r.current.pos + (n - 1) < |s|
  {
    Iterators.Deref(Iterators.Iterator(r.current.pos + (n - 1)), s)
  }

  /** `r[n]` as the adapter's own `+` and `*` require, and as the `noexcept`
      clause on the same declaration spells it: `*(current - (n + 1))`. */
  function IndexFixed<T>(r: ReverseIterator, n: int, s: seq<T>): T
    requires 0 <= r.current.pos - (n + 1) < |s|
  {
    Iterators.Deref(Iterators.Iterator(r.current.pos - (n + 1)), s)
  }

  /** `++r`: `--current`. */
  function PreIncrement(r: ReverseIterator): ReverseIterator
  {
    ReverseIterator(Iterators.PreDecrement(r.current))
  }

  /** `r++`: (the copy returned, the adapter afterwards). */
  function PostIncrement(r: ReverseIterator): (ReverseIterator, ReverseIterator)
  {
    var tmp := r;
    (tmp, ReverseIterator(Iterators.PreDecrement(r.current)))
  }

  /** `--r`: `++current`. */
  function PreDecrement(r: ReverseIterator): ReverseIterator
  {
    ReverseIterator(Iterators.PreIncrement(r.current))
  }

  /** `r--`: (the copy returned, the adapter afterwards). */
  function PostDecrement(r: ReverseIterator): (ReverseIterator, ReverseIterator)
  {
    var tmp := r;
    (tmp, ReverseIterator(Iterators.PreIncrement(r.current)))
  }

  /** `r + n`, a new adapter over `current - n`; `r += n` stores the same
      value back into `r`. */
  function Plus(r: ReverseIterator, n: int): ReverseIterator
  {
    ReverseIterator(Iterators.Iterator(r.current.pos - n))
  }

  /** `r - n`, a new adapter over `current + n`; `r -= n` stores the same
      value back into `r`. */
  function Minus(r: ReverseIterator, n: int): ReverseIterator
  {
    ReverseIterator(Iterators.Iterator(r.current.pos + n))
  }

  // The six comparisons as written: each compares the two bases in the same
  // direction as the operator.
  predicate Equal(a: ReverseIterator, b: ReverseIterator)     { Iterators.Equal(a.current, Base(b)) }
  predicate NotEqual(a: ReverseIterator, b: ReverseIterator)  { Iterators.NotEqual(a.current, Base(b)) }
  predicate GreaterEq(a: ReverseIterator, b: ReverseIterator) { Iterators.GreaterEq(a.current, Base(b)) }
  predicate LessEq(a: ReverseIterator, b: ReverseIterator)    { Iterators.LessEq(a.current, Base(b)) }
  predicate Greater(a: ReverseIterator, b: ReverseIterator)   { Iterators.Greater(a.current, Base(b)) }
  predicate Less(a: ReverseIterator, b: ReverseIterator)      { Iterators.Less(a.current, Base(b)) }

  // The relational comparisons as the traversal order requires: an adapter
  // that has been incremented further compares greater, so the bases compare
  // in the opposite direction.
  predicate LessFixed(a: ReverseIterator, b: ReverseIterator)      { Iterators.Greater(a.current, Base(b)) }
  predicate LessEqFixed(a: ReverseIterator, b: ReverseIterator)    { Iterators.GreaterEq(a.current, Base(b)) }
  predicate GreaterFixed(a: ReverseIterator, b: ReverseIterator)   { Iterators.Less(a.current, Base(b)) }
  predicate GreaterEqFixed(a: ReverseIterator, b: ReverseIterator) { Iterators.LessEq(a.current, Base(b)) }

  /** `k` prefix increments in a row. */
  function Advance(r: ReverseIterator, k: nat): ReverseIterator
  {
    if k == 0 then r else PreIncrement(Advance(r, k - 1))
  }

  /** `base()` gives back exactly the wrapped iterator. */
  lemma BaseRoundTrip(it: Iterators.Iterator, r: ReverseIterator)
    ensures Base(ReverseIterator(it)) == it
    ensures ReverseIterator(Base(r)) == r
  {
  }

  /** `*r` reads the element just before the base. */
  lemma DerefReadsBeforeBase<T>(r: ReverseIterator, s: seq<T>)
    requires 0 <= Base(r).pos - 1 < |s|
    ensures Deref(r, s) == s[Base(r).pos - 1]
  {
  }

  /** Increment moves the base one step back, decrement one step forward,
      and each undoes the other. */
  lemma IncrementDecrementRoundTrip(r: ReverseIterator)
    ensures Base(PreIncrement(r)).pos == Base(r).pos - 1
    ensures Base(PreDecrement(r)).pos == Base(r).pos + 1
    ensures PreDecrement(PreIncrement(r)) == r
    ensures PreIncrement(PreDecrement(r)) == r
  {
  }

  /** The postfix forms return the prior adapter and move like the prefix forms. */
  lemma PostfixMatchesPrefix(r: ReverseIterator)
    ensures PostIncrement(r).0 == r && PostIncrement(r).1 == PreIncrement(r)
    ensures PostDecrement(r).0 == r && PostDecrement(r).1 == PreDecrement(r)
  {
  }

  /** Offsetting by `n` agrees with `n` increments, and `-` undoes `+`. */
  lemma {:induction false} PlusIsRepeatedIncrement(r: ReverseIterator, n: nat)
    ensures Advance(r, n) == Plus(r, n)
    ensures Minus(Plus(r, n), n) == r
  {
    if n > 0 {
      PlusIsRepeatedIncrement(r, n - 1);
    }
  }

  /** After `k` increments the adapter reads the element `k` slots further
      towards the front. */
  lemma {:induction false} AdvanceReadsBackwards<T>(r: ReverseIterator, k: nat, s: seq<T>)
    requires 0 <= Base(r).pos - 1 - k < |s|
    ensures 0 <= Base(Advance(r, k)).pos - 1 < |s|
    ensures Deref(Advance(r, k), s) == s[Base(r).pos - 1 - k]
  {
    PlusIsRepeatedIncrement(r, k);
  }

  /** `r[0]` equals `*r` as written. */
  lemma IndexZeroIsDeref<T>(r: ReverseIterator, s: seq<T>)
    requires 0 <= r.current.pos - 1 < |s|
    ensures Index(r, 0, s) == Deref(r, s)
  {
  }

  /** As written, `r[n]` reads the slot `*(r + n)` reads only when `n == 0`. */
  lemma IndexAgreesWithOffsetOnlyAtZero(r: ReverseIterator, n: int)
    ensures (r.current.pos + (n - 1) == Base(Plus(r, n)).pos - 1) <==> n == 0
  {
  }

  /** A concrete instance: over `[10, 20, 30]` with base at slot 2, `r[1]`
      as written reads 30 while `*(r + 1)` reads 10. */
  lemma IndexCounterexample()
    ensures Index(ReverseIterator(Iterators.Iterator(2)), 1, [10, 20, 30]) == 30
    ensures Deref(Plus(ReverseIterator(Iterators.Iterator(2)), 1), [10, 20, 30]) == 10
  {
  }

  /** With the intended formula `r[n]` is `*(r + n)` for every `n`, and in
      particular `r[0]` is `*r`. */
  lemma IndexFixedIsOffsetDeref<T>(r: ReverseIterator, n: int, s: seq<T>)
    requires 0 <= r.current.pos - (n + 1) < |s|
    ensures 0 <= Base(Plus(r, n)).pos - 1 < |s|
    ensures IndexFixed(r, n, s) == Deref(Plus(r, n), s)
    ensures n == 0 ==> IndexFixed(r, n, s) == Deref(r, s)
  {
  }

  /** The six comparisons as written compare the bases directly. */
  lemma ComparisonsFollowBase(a: ReverseIterator, b: ReverseIterator)
    ensures Equal(a, b) <==> Base(a) == Base(b)
    ensures NotEqual(a, b) <==> Base(a) != Base(b)
    ensures Less(a, b) <==> Base(a).pos < Base(b).pos
    ensures LessEq(a, b) <==> Base(a).pos <= Base(b).pos
    ensures Greater(a, b) <==> Base(a).pos > Base(b).pos
    ensures GreaterEq(a, b) <==> Base(a).pos >= Base(b).pos
  {
  }

  /** As written, an adapter moved forward by `n > 0` compares LESS than
      where it started, so `r < r + n` is false. */
  lemma LessContradictsTraversal(r: ReverseIterator, n: int)
    requires n > 0
    ensures !Less(r, Plus(r, n))
    ensures Less(Plus(r, n), r)
  {
  }

  /** With the comparisons reversed on the bases, moving forward by `n > 0`
      makes the adapter compare greater, and `<` stays a strict total order. */
  lemma LessFixedFollowsTraversal(r: ReverseIterator, n: int, a: ReverseIterator, b: ReverseIterator)
    requires n > 0
    ensures LessFixed(r, Plus(r, n)) && GreaterFixed(Plus(r, n), r)
    ensures LessFixed(r, PreIncrement(r))
    ensures !LessFixed(a, a)
    ensures LessFixed(a, b) || Equal(a, b) || LessFixed(b, a)
    ensures LessEqFixed(a, b) <==> !GreaterFixed(a, b)
    ensures GreaterEqFixed(a, b) <==> !LessFixed(a, b)
  {
  }
}

=== FILE: unique_ptr.dfy ===
/** The exclusive-ownership pointer of smart_pointers/unique_ptr.h.

    The primary template `unique_ptr<T, D>` and the specialisation
    `unique_ptr<T[], D>` are told apart by `Kind`.  A raw pointer is an
    abstract address or null; the deleter is an opaque value.  Every
    operation that may destroy the pointee returns the list of deleter
    invocations it makes, so that ownership can be accounted for: each
    non-null pointer is, at every moment, either held by some owner or has
    been handed to a deleter. */
module UniquePtr {

  datatype Ptr = Null | Addr(addr: nat)

  /** `unique_ptr<T, D>` or `unique_ptr<T[], D>`. */
  datatype Kind = Scalar | Array

  datatype Holder<D> = Holder(ptr: Ptr, deleter: D)

  /** One invocation `deleter(ptr)`. */
  datatype Call<D> = Call(deleter: D, ptr: Ptr)

  /** `unique_ptr()` and `unique_ptr(nullptr)`; `d` is the deleter the
      object is built with. */
  function Default<D>(d: D): (h: Holder<D>)
    ensures !IsSet(h) && EqualsNull(h) && h.deleter == d
    ensures Destroy(Scalar, h) == []
  {
    Holder(Null, d)
  }

  /** `unique_ptr(p)` and `unique_ptr(p, d)` */
  function FromPointer<D>(p: Ptr, d: D): (h: Holder<D>)
    ensures Get(h) == p && h.deleter == d
    ensures IsSet(h) <==> p != Null
  {
    Holder(p, d)
  }

  /** `get()` */
  function Get<D>(h: Holder<D>): Ptr
  {
    h.ptr
  }

  /** `explicit operator bool()` */
  predicate IsSet<D>(h: Holder<D>)
  {
    h.ptr != Null
  }

  /** `release()`: (the holder afterwards, the pointer returned). */
  function Release<D>(h: Holder<D>): (r: (Holder<D>, Ptr))
    ensures r.1 == Get(h) && !IsSet(r.0) && r.0.deleter == h.deleter
  {
    var old_ptr := h.ptr;
    (Holder(Null, h.deleter), old_ptr)
  }

  /** The move constructor: (the new holder, the moved-from source). */
  function MoveConstruct<D>(src: Holder<D>): (r: (Holder<D>, Holder<D>))
    ensures Get(r.0) == Get(src) && r.0.deleter == src.deleter
    ensures !IsSet(r.1)
  {
    (Holder(src.ptr, src.deleter), Holder(Null, src.deleter))
  }

  /** `reset(p)`: (the holder afterwards, the deleter calls).  The scalar
      form only overwrites the pointer; the array form passes the old pointer
      to the holder's deleter when it is not null. */
  function Reset<D>(kind: Kind, h: Holder<D>, p: Ptr): (r: (Holder<D>, seq<Call<D>>))
    ensures Get(r.0) == p && r.0.deleter == h.deleter
    ensures kind == Scalar ==> r.1 == []
    ensures kind == Array ==> r.1 == (if h.ptr != Null then [Call(h.deleter, h.ptr)] else [])
  {
    match kind
    case Scalar =>
      (Holder(p, h.deleter), [])
    case Array =>
      var old_ptr := h.ptr;
      (Holder(p, h.deleter), if old_ptr != Null then [Call(h.deleter, old_ptr)] else [])
  }

  /** The scalar `reset(p)` as the ownership contract requires: the
      previously owned pointer, if any, goes to the deleter once. */
  function ResetFixed<D>(h: Holder<D>, p: Ptr): (r: (Holder<D>, seq<Call<D>>))
    ensures Get(r.0) == p && r.0.deleter == h.deleter
    ensures Owned([h]) + NonNull(p) == Owned([r.0]) + Freed(r.1)
    ensures |r.1| <= 1
  {
    (Holder(p, h.deleter), if h.ptr != Null then [Call(h.deleter, h.ptr)] else [])
  }

  /** `operator=(unique_ptr&&)`: (destination, source, deleter calls).
      `sameObject` is the `this == std::addressof(other)` test; the same
      object has one state, hence the precondition. */
  function MoveAssign<D>(kind: Kind, dst: Holder<D>, src: Holder<D>, sameObject: bool)
    : (r: (Holder<D>, Holder<D>, seq<Call<D>>))
    requires sameObject ==> dst == src
    ensures sameObject ==> r == (dst, src, [])
    ensures !sameObject ==> Get(r.0) == Get(src) && r.0.deleter == src.deleter && !IsSet(r.1)
    ensures !sameObject ==> r.2 == Reset(kind, dst, Get(src)).1
  {
    if sameObject then (dst, src, [])
    else
      var (released, p) := Release(src);
      var (reset, calls) := Reset(kind, dst, p);
      (Holder(reset.ptr, src.deleter), released, calls)
  }

  /** Move assignment built on the intended `reset`. */
  function MoveAssignFixed<D>(dst: Holder<D>, src: Holder<D>, sameObject: bool)
    : (r: (Holder<D>, Holder<D>, seq<Call<D>>))
    requires sameObject ==> dst == src
    ensures Owned([dst, src]) == Owned([r.0, r.1]) + Freed(r.2)
    ensures !sameObject ==> Get(r.0) == Get(src) && !IsSet(r.1)
  {
    if sameObject then (dst, src, [])
    else
      var (released, p) := Release(src);
      var (reset, calls) := ResetFixed(dst, p);
      OwnedPair(dst, src);
      OwnedPair(Holder(reset.ptr, src.deleter), released);
      (Holder(reset.ptr, src.deleter), released, calls)
  }

  /** `operator=(nullptr)`, which is `reset()`. */
  function AssignNull<D>(kind: Kind, h: Holder<D>): (r: (Holder<D>, seq<Call<D>>))
    ensures !IsSet(r.0)
    ensures kind == Scalar ==> r.1 == []
    ensures kind == Array ==> Freed(r.1) == Owned([h])
    ensures r.0.deleter == h.deleter
    ensures forall c | c in r.1 :: c == Call(h.deleter, h.ptr) && c.ptr != Null
  {
    Reset(kind, h, Null)
  }

  /** `swap(other)`: exchanges pointers and deleters. */
  function Swap<D>(a: Holder<D>, b: Holder<D>): (Holder<D>, Holder<D>)
  {
    (Holder(b.ptr, b.deleter), Holder(a.ptr, a.deleter))
  }

  /** The destructor: the scalar form calls the deleter only on a non-null
      pointer, the array form calls it unconditionally. */
  function Destroy<D>(kind: Kind, h: Holder<D>): (calls: seq<Call<D>>)
    ensures Freed(calls) == Owned([h])
    ensures kind == Scalar ==> (calls == [] <==> !IsSet(h))
    ensures kind == Scalar ==> forall c | c in calls :: c == Call(h.deleter, h.ptr) && c.ptr != Null
    ensures kind == Array ==> calls == [Call(h.deleter, h.ptr)]
  {
    match kind
    case Scalar => if h.ptr != Null then [Call(h.deleter, h.ptr)] else []
    case Array => [Call(h.deleter, h.ptr)]
  }

  // The comparisons with another holder and with `nullptr` (either operand order).
  predicate Equal<D>(x: Holder<D>, y: Holder<D>)    { Get(x) == Get(y) }
  predicate NotEqual<D>(x: Holder<D>, y: Holder<D>) { Get(x) != Get(y) }
  predicate EqualsNull<D>(x: Holder<D>)             { Get(x) == Null }
  predicate NotEqualsNull<D>(x: Holder<D>)          { Get(x) != Null }

  // ---------------------------------------------------------------------
  // Ownership accounting.

  /** The pointer as a multiset: empty for null. */
  function NonNull(p: Ptr): multiset<Ptr>
  {
    if p == Null then multiset{} else multiset{p}
  }

  /** The non-null pointers the holders own. */
  function Owned<D>(hs: seq<Holder<D>>): multiset<Ptr>
  {
    if |hs| == 0 then multiset{} else Owned(hs[..|hs| - 1]) + NonNull(hs[|hs| - 1].ptr)
  }

  /** The non-null pointers handed to a deleter. */
  function Freed<D>(calls: seq<Call<D>>): multiset<Ptr>
  {
    if |calls| == 0 then multiset{} else Freed(calls[..|calls| - 1]) + NonNull(calls[|calls| - 1].ptr)
  }

  lemma OwnedPair<D>(a: Holder<D>, b: Holder<D>)
    ensures Owned([a, b]) == NonNull(a.ptr) + NonNull(b.ptr)
  {
    OwnedSingle(a);
    assert [a, b][..1] == [a];
  }

  lemma OwnedSingle<D>(a: Holder<D>)
    ensures Owned([a]) == NonNull(a.ptr)
  {
    assert [a][..0] == [];
  }

  lemma {:induction false} FreedAppend<D>(a: seq<Call<D>>, b: seq<Call<D>>)
    ensures Freed(a + b) == Freed(a) + Freed(b)
    decreases |b|
  {
    if |b| == 0 {
      assert a + b == a;
    } else {
      assert (a + b)[..|a + b| - 1] == a + b[..|b| - 1];
      assert (a + b)[|a + b| - 1] == b[|b| - 1];
      FreedAppend(a, b[..|b| - 1]);
    }
  }

  /** `release()` hands ownership to the caller and calls no deleter. */
  lemma ReleaseHandsOverOwnership<D>(h: Holder<D>)
    ensures Owned([h]) == Owned([Release(h).0]) + NonNull(Release(h).1)
    ensures Destroy(Scalar, Release(h).0) == []
  {
  }

  /** Move construction conserves ownership: the pointer moves, nothing is
      deleted, and destroying both holders afterwards deletes it exactly once. */
  lemma MoveConstructConserves<D>(kind: Kind, src: Holder<D>)
    ensures Owned([src]) == Owned([MoveConstruct(src).0, MoveConstruct(src).1])
    ensures Freed(Destroy(kind, MoveConstruct(src).0) + Destroy(kind, MoveConstruct(src).1)) == Owned([src])
  {
    var (a, b) := MoveConstruct(src);
    OwnedPair(a, b);
    FreedAppend(Destroy(kind, a), Destroy(kind, b));
  }

  /** `swap` conserves ownership and is its own inverse. */
  lemma SwapConserves<D>(a: Holder<D>, b: Holder<D>)
    ensures Owned([a, b]) == Owned([Swap(a, b).0, Swap(a, b).1])
    ensures Swap(a, b).0 == b && Swap(a, b).1 == a
    ensures Swap(Swap(a, b).0, Swap(a, b).1) == (a, b)
  {
    OwnedPair(a, b);
    OwnedPair(b, a);
  }

  /** The array `reset` conserves ownership: the old pointer is deleted and
      the new one taken in. */
  lemma ArrayResetConserves<D>(h: Holder<D>, p: Ptr)
    ensures Owned([h]) + NonNull(p) == Owned([Reset(Array, h, p).0]) + Freed(Reset(Array, h, p).1)
  {
  }

  /** The scalar `reset` as written loses the old pointer: it is neither held
      nor deleted afterwards (unless it is the new pointer again). */
  lemma ScalarResetLeaks<D>(h: Holder<D>, p: Ptr)
    requires h.ptr != Null && p != h.ptr
    ensures Freed(Reset(Scalar, h, p).1) == multiset{}
    ensures h.ptr !in Owned([Reset(Scalar, h, p).0])
    ensures Owned([h]) + NonNull(p) != Owned([Reset(Scalar, h, p).0]) + Freed(Reset(Scalar, h, p).1)
  {
    OwnedSingle(h);
    OwnedSingle(Reset(Scalar, h, p).0);
    assert h.ptr in Owned([h]) + NonNull(p);
  }

  /** Array move assignment conserves ownership across the two holders. */
  lemma ArrayMoveAssignConserves<D>(dst: Holder<D>, src: Holder<D>, sameObject: bool)
    requires sameObject ==> dst == src
    ensures var r := MoveAssign(Array, dst, src, sameObject);
            Owned([dst, src]) == Owned([r.0, r.1]) + Freed(r.2)
  {
    var r := MoveAssign(Array, dst, src, sameObject);
    OwnedPair(dst, src);
    OwnedPair(r.0, r.1);
  }

  /** Scalar move assignment conserves ownership exactly when the
      destination held nothing (or it is a self-assignment); otherwise the
      destination's old pointer leaks. */
  lemma ScalarMoveAssignLeaks<D>(dst: Holder<D>, src: Holder<D>, sameObject: bool)
    requires sameObject ==> dst == src
    ensures var r := MoveAssign(Scalar, dst, src, sameObject);
            (Owned([dst, src]) == Owned([r.0, r.1]) + Freed(r.2)) <==> (sameObject || dst.ptr == Null)
  {
    var r := MoveAssign(Scalar, dst, src, sameObject);
    OwnedPair(dst, src);
    OwnedPair(r.0, r.1);
    if !sameObject && dst.ptr != Null {
      assert Owned([dst, src]) == Owned([r.0, r.1]) + Freed(r.2) + multiset{dst.ptr};
    }
  }

  /** Resets to each of `ps` in turn: (the holder afterwards, all deleter calls). */
  function ResetAll<D>(kind: Kind, h: Holder<D>, ps: seq<Ptr>): (Holder<D>, seq<Call<D>>)
    decreases |ps|
  {
    if |ps| == 0 then (h, [])
    else
      var (next, calls) := Reset(kind, h, ps[0]);
      var (last, more) := ResetAll(kind, next, ps[1..]);
      (last, calls + more)
  }

  /** The non-null pointers of a sequence. */
  function Pointers(ps: seq<Ptr>): multiset<Ptr>
  {
    if |ps| == 0 then multiset{} else NonNull(ps[0]) + Pointers(ps[1..])
  }

  /** An array holder reset through `ps` and then destroyed deletes every
      non-null pointer it ever owned, each exactly as often as it was
      handed over. */
  lemma {:induction false} ArrayResetChainDeletesEveryPointer<D>(h: Holder<D>, ps: seq<Ptr>)
    ensures var r := ResetAll(Array, h, ps);
            Freed(r.1 + Destroy(Array, r.0)) == Owned([h]) + Pointers(ps)
    decreases |ps|
  {
    if |ps| == 0 {
      assert ResetAll(Array, h, ps) == (h, []);
      assert [] + Destroy(Array, h) == Destroy(Array, h);
    } else {
      var step := Reset(Array, h, ps[0]);
      var rest := ResetAll(Array, step.0, ps[1..]);
      assert ResetAll(Array, h, ps) == (rest.0, step.1 + rest.1);
      var tail := rest.1 + Destroy(Array, rest.0);
      assert step.1 + rest.1 + Destroy(Array, rest.0) == step.1 + tail;
      ArrayResetChainDeletesEveryPointer(step.0, ps[1..]);
      ArrayResetConserves(h, ps[0]);
      FreedAppend(step.1, tail);
      HandOver(Owned([h]), NonNull(ps[0]), Owned([step.0]), Freed(step.1), Pointers(ps[1..]));
      assert Pointers(ps) == NonNull(ps[0]) + Pointers(ps[1..]);
    }
  }

  /** One step of a chain of hand-overs: what a step frees, together with
      what is held afterwards and everything still to come, is what was held
      before plus what came in. */
  lemma HandOver(held: multiset<Ptr>, incoming: multiset<Ptr>, heldAfter: multiset<Ptr>,
                 freed: multiset<Ptr>, later: multiset<Ptr>)
    requires held + incoming == heldAfter + freed
    ensures freed + (heldAfter + later) == held + (incoming + later)
  {
    forall x ensures (freed + (heldAfter + later))[x] == (held + (incoming + later))[x] {
      assert (held + incoming)[x] == (heldAfter + freed)[x];
    }
  }

  /** A scalar holder reset through `ps` and then destroyed deletes only the
      pointer it holds at the end; all earlier ones are lost. */
  lemma {:induction false} ScalarResetChainDeletesOnlyLast<D>(h: Holder<D>, ps: seq<Ptr>)
    requires |ps| > 0
    ensures var (last, calls) := ResetAll(Scalar, h, ps);
            calls == [] && Freed(calls + Destroy(Scalar, last)) == NonNull(ps[|ps| - 1])
    decreases |ps|
  {
    var (next, calls) := Reset(Scalar, h, ps[0]);
    if |ps| > 1 {
      ScalarResetChainDeletesOnlyLast(next, ps[1..]);
      assert ps[1..][|ps[1..]| - 1] == ps[|ps| - 1];
    }
  }

  /** The comparisons compare `get()` values, and `!=` negates `==`. */
  lemma ComparisonsCompareGet<D>(x: Holder<D>, y: Holder<D>)
    ensures Equal(x, y) <==> Get(x) == Get(y)
    ensures NotEqual(x, y) <==> !Equal(x, y)
    ensures EqualsNull(x) <==> !IsSet(x)
    ensures NotEqualsNull(x) <==> IsSet(x)
    ensures Equal(x, Default(y.deleter)) <==> EqualsNull(x)
  {
  }
}

=== FILE: vector.dfy ===
/** The growable contiguous container of vector.h.

    The object `(sz_, cap_, arr_)` is modelled by the live elements
    `elems` (so `sz_ == |elems|`) and the capacity `cap`.  Each mutator is
    given twice: a pure function that states its effect on contents, size,
    capacity and outcome, and a `...Traced` method that follows the C++
    loops and also returns the trace of constructions, destructions and block
    releases it performs (see module Lifetimes). */
module Vectors {
  import opened Outcomes
  import opened Lifetimes
  import Iterators

  datatype Vector<T> = Vector(elems: seq<T>, cap: nat)
  {
    /** The class invariant `sz_ <= cap_`. */
    predicate Valid()
    {
      |elems| <= cap
    }

    /** `size()` */
    function Size(): nat
    {
      |elems|
    }

    /** `capacity()` */
    function Capacity(): nat
    {
      cap
    }

    /** `empty()` */
    predicate Empty()
    {
      |elems| == 0
    }
  }

  /** The outcome of a mutator and the container afterwards. */
  datatype Step<T> = Step(outcome: Outcome, after: Vector<T>)

  function Max(a: nat, b: nat): nat
  {
    if a < b then b else a
  }

  /** The geometric growth rule `cap_ != 0 ? cap_ * 2 : 1`. */
  function GrownCapacity(cap: nat): (r: nat)
    ensures cap < r
  {
    if cap != 0 then cap * 2 else 1
  }

  /** `k` copies of `value`. */
  function Copies<T>(value: T, k: nat): (r: seq<T>)
    ensures |r| == k
    ensures forall i :: 0 <= i < k ==> r[i] == value
  {
    seq(k, _ => value)
  }

  /** `vector()`: no storage, nothing stored. */
  function New<T>(): (v: Vector<T>)
    ensures v.Valid()
    ensures v.Size() == 0 && v.Capacity() == 0 && v.Empty()
  {
    Vector([], 0)
  }

  /** `begin()` and `cbegin()`: the first slot. */
  function Begin<T>(v: Vector<T>): Iterators.Iterator
  {
    Iterators.Iterator(0)
  }

  /** `end()` and `cend()`: one past the last live element. */
  function End<T>(v: Vector<T>): Iterators.Iterator
  {
    Iterators.Iterator(|v.elems|)
  }

  /** `reserve(new_cap)` */
  function Reserve<T>(v: Vector<T>, n: nat, faults: Faults): (r: Step<T>)
    requires v.Valid()
    ensures r.after.Valid()
    ensures n <= v.cap ==> r == Step(Done, v)
    ensures r.outcome.Threw? ==> r.after == v
    ensures r.outcome == Threw(BadAlloc) <==> n > v.cap && faults.allocFails
    ensures r.outcome.Threw? && r.outcome.fault.ConstructorThrew? ==>
              r.outcome.fault.slot < |v.elems| && r.outcome.fault.slot in faults.throwsAt
    ensures n > v.cap && r.outcome.Done? ==> r.after.elems == v.elems && r.after.cap == n
    ensures n > v.cap && !faults.allocFails ==>
              (r.outcome.Done? <==> forall k :: 0 <= k < |v.elems| ==> k !in faults.throwsAt)
  {
    if n <= v.cap then Step(Done, v)
    else if faults.allocFails then Step(Threw(BadAlloc), v)
    else
      var i := FirstThrow(faults.throwsAt, 0, |v.elems|);
      if i < |v.elems| then Step(Threw(ConstructorThrew(i)), v)
      else Step(Done, Vector(v.elems, n))
  }

  /** `resize(n, value)` */
  function Resize<T>(v: Vector<T>, n: nat, value: T, faults: Faults): (r: Step<T>)
    requires v.Valid()
    ensures r.after.Valid() && r.after.cap >= v.cap
    ensures r.outcome.Threw? ==> r.after == v
    ensures r.outcome.Done? ==> |r.after.elems| == n
    ensures r.outcome.Done? && n < |v.elems| ==> r.after.elems == v.elems[..n]
    ensures r.outcome.Done? && |v.elems| <= n ==> r.after.elems == v.elems + Copies(value, n - |v.elems|)
    ensures n < |v.elems| ==> r.outcome.Done? && r.after.cap == v.cap
    ensures |v.elems| < n <= v.cap ==> r.after.cap == v.cap && r.outcome != Threw(BadAlloc)
    ensures |v.elems| <= n && (n == |v.elems| || v.cap < n) && r.outcome.Done? ==>
              r.after.cap == Max(GrownCapacity(v.cap), n)
    ensures r.outcome.Threw? && r.outcome.fault.ConstructorThrew? ==>
              r.outcome.fault.slot < n && r.outcome.fault.slot in faults.throwsAt
    ensures |v.elems| < n <= v.cap ==>
              (r.outcome.Done? <==> forall k :: |v.elems| <= k < n ==> k !in faults.throwsAt)
    ensures |v.elems| <= n && (n == |v.elems| || v.cap < n) ==>
              (r.outcome == Threw(BadAlloc) <==> faults.allocFails)
    ensures |v.elems| <= n && (n == |v.elems| || v.cap < n) && !faults.allocFails ==>
              (r.outcome.Done? <==> forall k :: 0 <= k < n ==> k !in faults.throwsAt)
    ensures !faults.allocFails && faults.throwsAt == {} ==> r.outcome.Done?
  {
    var sz := |v.elems|;
    if n < sz then
      Step(Done, Vector(v.elems[..n], v.cap))
    else if n > sz && n <= v.cap then
      var i := FirstThrow(faults.throwsAt, sz, n);
      if i < n then Step(Threw(ConstructorThrew(i)), v)
      else Step(Done, Vector(v.elems + Copies(value, n - sz), v.cap))
    else
      var newCap := Max(GrownCapacity(v.cap), n);
      if faults.allocFails then Step(Threw(BadAlloc), v)
      else
        var i := FirstThrow(faults.throwsAt, 0, n);
        if i < n then Step(Threw(ConstructorThrew(i)), v)
        else Step(Done, Vector(v.elems + Copies(value, n - sz), newCap))
  }

  /** `resize` with the evidently intended guard: a call with `n == size()`
      leaves the container alone instead of reallocating it. */
  function ResizeFixed<T>(v: Vector<T>, n: nat, value: T, faults: Faults): (r: Step<T>)
    requires v.Valid()
    ensures r.after.Valid()
    ensures r.outcome.Threw? ==> r.after == v
    ensures r.outcome.Done? ==> |r.after.elems| == n
    ensures r.outcome.Done? ==>
              r.after.elems == (if n < |v.elems| then v.elems[..n] else v.elems + Copies(value, n - |v.elems|))
    ensures n <= v.cap ==> r.after.cap == v.cap
    ensures n == |v.elems| ==> r == Step(Done, v)
  {
    if n == |v.elems| then Step(Done, v) else Resize(v, n, value, faults)
  }

  /** `push_back(value)` */
  function PushBack<T>(v: Vector<T>, value: T, faults: Faults): (r: Step<T>)
    requires v.Valid()
    ensures r.after.Valid()
    ensures r.outcome.Threw? ==> r.after == v
    ensures r.outcome.Done? ==> r.after.elems == v.elems + [value]
    ensures r.outcome.Done? ==>
              r.after.cap == (if |v.elems| == v.cap then GrownCapacity(v.cap) else v.cap)
    ensures |v.elems| < v.cap ==> r.outcome != Threw(BadAlloc)
    ensures r.outcome.Threw? && r.outcome.fault.ConstructorThrew? ==>
              r.outcome.fault.slot <= |v.elems| && r.outcome.fault.slot in faults.throwsAt
    ensures r.outcome == Threw(BadAlloc) <==> |v.elems| == v.cap && faults.allocFails
    ensures |v.elems| < v.cap ==> (r.outcome.Done? <==> |v.elems| !in faults.throwsAt)
    ensures |v.elems| == v.cap && !faults.allocFails ==>
              (r.outcome.Done? <==> forall k :: 0 <= k <= |v.elems| ==> k !in faults.throwsAt)
    ensures !faults.allocFails && faults.throwsAt == {} ==> r.outcome.Done?
  {
    var sz := |v.elems|;
    if sz == v.cap then
      if faults.allocFails then Step(Threw(BadAlloc), v)
      else
        var i := FirstThrow(faults.throwsAt, 0, sz + 1);
        if i < sz + 1 then Step(Threw(ConstructorThrew(i)), v)
        else Step(Done, Vector(v.elems + [value], GrownCapacity(v.cap)))
    else if sz in faults.throwsAt then Step(Threw(ConstructorThrew(sz)), v)
    else Step(Done, Vector(v.elems + [value], v.cap))
  }

  /** `pop_back()`; calling it on an empty container is undefined behaviour,
      hence the precondition. */
  function PopBack<T>(v: Vector<T>): (r: Vector<T>)
    requires v.Valid() && |v.elems| > 0
    ensures r.Valid() && r.cap == v.cap
    ensures |r.elems| + 1 == |v.elems|
    ensures r.elems + [v.elems[|v.elems| - 1]] == v.elems
  {
    Vector(v.elems[..|v.elems| - 1], v.cap)
  }

  /** `push_back` of each of `values` in turn, in an environment where
      nothing fails. */
  function PushAll<T>(v: Vector<T>, values: seq<T>): (r: Vector<T>)
    requires v.Valid()
    ensures r.Valid() && r.cap >= v.cap
    ensures r.elems == v.elems + values
    decreases |values|
  {
    if |values| == 0 then v
    else
      var next := PushBack(v, values[0], NoFaults).after;
      assert next.elems + values[1..] == v.elems + values;
      PushAll(next, values[1..])
  }

  // ---------------------------------------------------------------------
  // The mutators step by step, with their construct/destroy traces.

  /** `reserve(new_cap)` following the source loop by loop. */
  method ReserveTraced<T>(v: Vector<T>, n: nat, faults: Faults)
    returns (out: Outcome, w: Vector<T>, events: seq<Event>)
    requires v.Valid()
    ensures Step(out, w) == Reserve(v, n, faults)
    ensures n <= v.cap || faults.allocFails ==> events == []
    ensures out.Threw? && out.fault.ConstructorThrew? ==>
              var i := out.fault.slot;
              events == Constructs(Fresh, 0, i) + RollbackAsWritten(Fresh, 0, i) + [Release(Fresh)]
    ensures n > v.cap && out.Done? ==>
              events == Constructs(Fresh, 0, |v.elems|) + TeardownAsWritten(|v.elems|) + [Release(Current)]
  {
    if n <= v.cap {
      return Done, v, [];
    }
    if faults.allocFails {
      return Threw(BadAlloc), v, [];
    }
    var built, i, copied := ConstructEach(Fresh, v.elems, 0, faults.throwsAt);
    if i < |v.elems| {
      var unwound := DestroySlotRepeatedly(Fresh, i, 0, i);
      return Threw(ConstructorThrew(i)), v, copied + unwound + [Release(Fresh)];
    }
    var retired := DestroySlotRepeatedly(Current, 1, 0, |v.elems|);
    return Done, Vector(built, n), copied + retired + [Release(Current)];
  }

  /** `push_back(value)` following the source loop by loop. */
  method PushBackTraced<T>(v: Vector<T>, value: T, faults: Faults)
    returns (out: Outcome, w: Vector<T>, events: seq<Event>)
    requires v.Valid()
    ensures Step(out, w) == PushBack(v, value, faults)
    ensures |v.elems| < v.cap ==> events == (if out.Done? then [Construct(Current, |v.elems|)] else [])
    ensures out == Threw(BadAlloc) ==> events == []
    ensures |v.elems| == v.cap && out.Threw? && out.fault.ConstructorThrew? ==>
              var i := out.fault.slot;
              events == Constructs(Fresh, 0, i) + RollbackAsWritten(Fresh, 0, i) + [Release(Fresh)]
    ensures |v.elems| == v.cap && out.Done? ==>
              events == Constructs(Fresh, 0, |v.elems| + 1) + TeardownAsWritten(|v.elems|) + [Release(Current)]
  {
    var sz := |v.elems|;
    if sz == v.cap {
      if faults.allocFails {
        return Threw(BadAlloc), v, [];
      }
      var built, i, copied := ConstructEach(Fresh, v.elems + [value], 0, faults.throwsAt);
      if i < sz + 1 {
        var unwound := DestroySlotRepeatedly(Fresh, i, 0, i);
        return Threw(ConstructorThrew(i)), v, copied + unwound + [Release(Fresh)];
      }
      var retired := DestroySlotRepeatedly(Current, 1, 0, sz);
      return Done, Vector(built, GrownCapacity(v.cap)), copied + retired + [Release(Current)];
    }
    if sz in faults.throwsAt {
      return Threw(ConstructorThrew(sz)), v, [];
    }
    return Done, Vector(v.elems + [value], v.cap), [Construct(Current, sz)];
  }

  /** `resize(n, value)` following the source loop by loop. */
  method ResizeTraced<T>(v: Vector<T>, n: nat, value: T, faults: Faults)
    returns (out: Outcome, w: Vector<T>, events: seq<Event>)
    requires v.Valid()
    ensures Step(out, w) == Resize(v, n, value, faults)
    ensures n < |v.elems| ==> events == Destroys(Current, n, |v.elems|)
    ensures out == Threw(BadAlloc) ==> events == []
    ensures |v.elems| < n <= v.cap && out.Threw? ==>
              var i := out.fault.slot;
              |v.elems| <= i && events == Constructs(Current, |v.elems|, i) + Rollback(Current, |v.elems|, i)
    ensures |v.elems| < n <= v.cap && out.Done? ==> events == Constructs(Current, |v.elems|, n)
    ensures |v.elems| <= n && (n == |v.elems| || v.cap < n) && out.Threw? && out.fault.ConstructorThrew? ==>
              var i := out.fault.slot;
              events == Constructs(Fresh, 0, i) + Rollback(Fresh, 0, i) + [Release(Fresh)]
    ensures |v.elems| <= n && (n == |v.elems| || v.cap < n) && out.Done? ==>
              events == Constructs(Fresh, 0, n) + [Release(Current)]
  {
    var sz := |v.elems|;
    if n < sz {
      events := DestroyRange(Current, n, sz);
      return Done, Vector(v.elems[..n], v.cap), events;
    } else if n > sz && n <= v.cap {
      var built, done, made := ConstructEach(Current, Copies(value, n - sz), sz, faults.throwsAt);
      if done < n - sz {
        var unwound := DestroyRange(Current, sz, sz + done);
        return Threw(ConstructorThrew(sz + done)), v, made + unwound;
      }
      return Done, Vector(v.elems + built, v.cap), made;
    } else {
      var newCap := Max(GrownCapacity(v.cap), n);
      if faults.allocFails {
        return Threw(BadAlloc), v, [];
      }
      var built, i, made := ConstructEach(Fresh, v.elems + Copies(value, n - sz), 0, faults.throwsAt);
      if i < n {
        var unwound := DestroyRange(Fresh, 0, i);
        return Threw(ConstructorThrew(i)), v, made + unwound + [Release(Fresh)];
      }
      // The old block is released without destroying its elements.
      return Done, Vector(built, newCap), made + [Release(Current)];
    }
  }

  // ---------------------------------------------------------------------
  // Properties relating several operations.

  /** Walking from `begin()` visits the live elements in order and reaches
      `end()` after `size()` steps. */
  lemma {:induction false} IteratorsSpanElements<T>(v: Vector<T>, i: nat)
    requires i <= |v.elems|
    ensures Iterators.Advance(Begin(v), i).pos == i
    ensures i < |v.elems| ==> Iterators.Deref(Iterators.Advance(Begin(v), i), v.elems) == v.elems[i]
    ensures Iterators.Advance(Begin(v), |v.elems|) == End(v)
  {
    Iterators.AdvanceMoves(Begin(v), i);
    Iterators.AdvanceMoves(Begin(v), |v.elems|);
  }

  /** A successful `reserve(n)` is idempotent: repeating it changes nothing. */
  lemma ReserveIdempotent<T>(v: Vector<T>, n: nat, faults: Faults, again: Faults)
    requires v.Valid() && Reserve(v, n, faults).outcome.Done?
    ensures Reserve(v, n, faults).after.cap == Max(v.cap, n)
    ensures Reserve(Reserve(v, n, faults).after, n, again) == Step(Done, Reserve(v, n, faults).after)
  {
  }

  /** Appending to a container whose capacity already covers the final size
      never reallocates. */
  lemma {:induction false} PushesWithinCapacityKeepCapacity<T>(v: Vector<T>, values: seq<T>)
    requires v.Valid() && |v.elems| + |values| <= v.cap
    ensures PushAll(v, values).cap == v.cap
    decreases |values|
  {
    if |values| > 0 {
      var next := PushBack(v, values[0], NoFaults).after;
      PushesWithinCapacityKeepCapacity(next, values[1..]);
    }
  }

  /** After a successful `reserve(n)`, appending up to `n` elements in total
      keeps the capacity at `n`: none of those appends reallocates. */
  lemma ReservedAppendsDoNotReallocate<T>(v: Vector<T>, n: nat, faults: Faults, values: seq<T>)
    requires v.Valid() && Reserve(v, n, faults).outcome.Done?
    requires |v.elems| + |values| <= n
    ensures PushAll(Reserve(v, n, faults).after, values).cap == Max(v.cap, n)
    ensures PushAll(Reserve(v, n, faults).after, values).elems == v.elems + values
  {
    PushesWithinCapacityKeepCapacity(Reserve(v, n, faults).after, values);
  }

  /** `c` is a power of two. */
  ghost predicate PowerOfTwo(c: nat)
    decreases c
  {
    c == 1 || (c > 1 && c % 2 == 0 && PowerOfTwo(c / 2))
  }

  lemma PowerOfTwoDoubles(c: nat)
    requires PowerOfTwo(c)
    ensures PowerOfTwo(2 * c)
  {
    assert (2 * c) / 2 == c;
  }

  /** Geometric growth keeps the capacity a power of two at most twice the
      size, once the container is non-empty. */
  lemma {:induction false} PushAllKeepsGeometricCapacity<T>(v: Vector<T>, values: seq<T>)
    requires v.Valid() && |v.elems| > 0 && PowerOfTwo(v.cap) && v.cap < 2 * |v.elems|
    ensures PowerOfTwo(PushAll(v, values).cap)
    ensures PushAll(v, values).cap < 2 * |PushAll(v, values).elems|
    decreases |values|
  {
    if |values| > 0 {
      var next := PushBack(v, values[0], NoFaults).after;
      if |v.elems| == v.cap {
        PowerOfTwoDoubles(v.cap);
      }
      PushAllKeepsGeometricCapacity(next, values[1..]);
    }
  }

  /** Starting empty, `k > 0` successful appends leave the `k` values in order
      and a capacity that is the power of two in `[k, 2k)`: the capacity
      runs through 1, 2, 4, 8, ... */
  lemma PushAllFromEmpty<T>(values: seq<T>)
    requires |values| > 0
    ensures PushAll(New<T>(), values).elems == values
    ensures PowerOfTwo(PushAll(New<T>(), values).cap)
    ensures |values| <= PushAll(New<T>(), values).cap < 2 * |values|
  {
    var first := PushBack(New<T>(), values[0], NoFaults).after;
    assert first.cap == 1;
    PushAllKeepsGeometricCapacity(first, values[1..]);
  }

  /** `pop_back` undoes a successful `push_back`, up to the capacity. */
  lemma PushPopRoundTrip<T>(v: Vector<T>, x: T, faults: Faults)
    requires v.Valid() && PushBack(v, x, faults).outcome.Done?
    ensures PopBack(PushBack(v, x, faults).after).elems == v.elems
    ensures PopBack(PushBack(v, x, faults).after).cap >= v.cap
  {
    assert (v.elems + [x])[..|v.elems|] == v.elems;
  }

  /** `resize(size())` as written reallocates even though the contents do not
      change: the capacity strictly grows. */
  lemma ResizeToSameSizeReallocates<T>(v: Vector<T>, value: T)
    requires v.Valid()
    ensures Resize(v, |v.elems|, value, NoFaults).outcome.Done?
    ensures Resize(v, |v.elems|, value, NoFaults).after.elems == v.elems
    ensures Resize(v, |v.elems|, value, NoFaults).after.cap > v.cap
  {
    assert v.elems + Copies(value, 0) == v.elems;
  }

  /** The growing branch of `resize` as written releases the old block while
      its `size()` elements are still alive: no destructor runs on them. */
  lemma ResizeGrowLeaksOldElements(size: nat, n: nat)
    requires size >= 1
    ensures Count(Constructs(Fresh, 0, n) + [Release(Current)], Destroy(Current, 0)) == 0
    ensures !DestroysEachOnce(Constructs(Fresh, 0, n) + [Release(Current)], Current, size)
  {
    CountAppend(Constructs(Fresh, 0, n), [Release(Current)], Destroy(Current, 0));
    CountConstructs(Fresh, 0, n, Destroy(Current, 0));
    CountSnoc([], Release(Current), Destroy(Current, 0));
    assert [] + [Release(Current)] == [Release(Current)];
  }

  /** The growing branch with the missing teardown added retires every old
      element exactly once. */
  lemma ResizeGrowWithTeardownBalances(size: nat, n: nat)
    ensures DestroysEachOnce(Constructs(Fresh, 0, n) + Teardown(size) + [Release(Current)], Current, size)
  {
    var events := Constructs(Fresh, 0, n) + Teardown(size) + [Release(Current)];
    forall s: nat ensures Count(events, Destroy(Current, s)) == (if s < size then 1 else 0) {
      CountAppend(Constructs(Fresh, 0, n), Teardown(size), Destroy(Current, s));
      CountSnoc(Constructs(Fresh, 0, n) + Teardown(size), Release(Current), Destroy(Current, s));
      CountConstructs(Fresh, 0, n, Destroy(Current, s));
      CountDestroys(Current, 0, size, Destroy(Current, s));
    }
  }
}
